=== FILE: README.md ===
# Ambient noise mixer — a Dafny model of its core

The application is a terminal mixer for six looping ambient sounds (sea, fire,
sea gull, rain, lightning, busy cafe). The user moves a selection with the
arrow keys, changes the selected sound's volume in steps of 5 %, and starts or
stops it with the space bar. This project models the three parts that make up
its core as one sequential state machine:

- **the mixer command layer** (`ui/app.py`), in `app.dfy` (module `AmbientApp`):
  - the sound catalogue and its layout;
  - construction of one state record and one engine spec per catalogue entry;
  - the mount step that marks sounds the engine reports missing;
  - the key commands. Each command is a pure function from the mixer state
    to the new state plus the list of engine calls it issues.
- **the sound panel** (`ui/sound_panel.py`), in `sound_panel.dfy` (module
  `SoundPanel`):
  - the key-to-index table;
  - circular selection;
  - the 16-cell volume bar and the percentage label;
  - the selected-entry marker and the playing/dim style;
  - the layout rows, which skip unknown keys.

  The widget is reduced to the rows it currently shows, so that "the screen
  shows the current state" can be stated.
- **the audio engine** (`audio/engine.py`), in `engine.dfy` (module
  `AudioEngine`):
  - the `initialized` and `available` flags;
  - the set of missing keys;
  - the key-to-sound and key-to-channel bindings;
  - the guards on every playback call.

  pygame is replaced by a `Backend` record: whether the mixer opens, which
  files exist, and which files load. Each channel is an abstract record: the
  sound it loops, if any, and its volume.

Supporting modules:

- `common.dfy`: keys, `Option`, the volume ceiling.
- `numeric.dfy`:
  - `max(lo, min(hi, x))`;
  - Python's `round`, which rounds halves to even;
  - Euclidean `%` facts. Python's `%` agrees with Dafny's for a positive
    modulus.
- `text.dfy`: `str.ljust`, the `:<w` and `:2d` format specs, and decimal
  rendering.

Two files state properties across modules:

- `mixer_invariants.dfy` (module `MixerInvariants`). It proves that mounting
  establishes, and every command preserves:
  - the mixer-side invariant: valid selection, volumes in range, only
    available sounds play, and the screen shows the current records;
  - when the audio device opened, that the engine's channels mirror the
    records of the available sounds;
  - when the device did not open, that the engine is never touched again.

  `CatalogueSafety` is the end-to-end statement for the real catalogue,
  any set of present files, any backend and any key sequence.
- `app_properties.dfy` (module `AppProperties`):
  - toggling twice;
  - volume keys at their limits;
  - the catalogue's rows;
  - the two quirks of the program as written:
    - a failed audio device leaves every sound looking available and
      toggleable;
    - an empty catalogue leaves the selection out of range, so only the
      two selection keys are accepted, and they do nothing.

Volumes are integer hundredths: 0 to 100, initial 50, step 5.

## Model

| member | source | states |
|---|---|---|
| Numeric.Clamp | ui/app.py:165 | the clamped volume lies in [lo, hi], equals the input inside the range, and is the nearer bound outside it |
| Numeric.RoundHalfEven | ui/sound_panel.py:60 | `round` yields an integer within half a unit of n/d, and the even one of two equally near integers |
| Numeric.RoundHalfEvenUnique | ui/sound_panel.py:60 | any integer meeting the nearest/tie-to-even contract is the value `round` returns, so the contract fixes the result |
| Numeric.RoundHalfEvenMonotone | ui/sound_panel.py:60 | rounding never reverses the order of two numerators |
| Text.Repeat | ui/sound_panel.py:62 | `c * n` has n characters, all equal to c |
| Text.PadRight | ui/sound_panel.py:68-69 | `ljust` and `:<w` keep the text as a prefix, pad with blanks to the width and never truncate |
| Text.PadLeft | ui/sound_panel.py:68 | the `:2d` padding keeps the text as a suffix, with blanks only in front |
| Text.NatToStringRoundTrip | ui/sound_panel.py:68 | reading back the decimal digits written for n gives n |
| Text.IntToString | ui/sound_panel.py:68 | a non-negative integer is written as digits denoting it, a negative one with a leading minus |
| AudioEngine.NewEngine | audio/engine.py:24-30 | a new engine holds the specs, is available and not initialized, with nothing bound or missing and no channel touched |
| AudioEngine.LoadOne | audio/engine.py:49-58 | one pass of the loading loop: an absent or unloadable file only adds the key to `missing`; otherwise the key's sound and channel are bound and that channel, and no other, takes the spec's volume |
| AudioEngine.LoadAll | audio/engine.py:48-58 | the loading loop leaves the specs and both flags alone |
| AudioEngine.Init | audio/engine.py:40-59 | a no-op once initialized; a failed mixer clears `available` and nothing else; otherwise the engine becomes initialized with `available` unchanged |
| AudioEngine.StartSound | audio/engine.py:61-69 | no-op when unavailable or missing; otherwise runs `init` first; a key left unbound after that `init` stops there; a bound one loops its own sound on the channel `init` bound it to, leaving every other channel as `init` left it |
| AudioEngine.StopSound | audio/engine.py:71-77 | no-op when unavailable, missing or unbound; otherwise halts the key's channel and no other, keeping its volume |
| AudioEngine.SetSoundVolume | audio/engine.py:79-85 | no-op under the same conditions; otherwise sets the volume of the key's channel and no other, playing or not |
| AudioEngine.Shutdown | audio/engine.py:87-91 | clears `initialized` and nothing else; a no-op on an engine that is not initialized |
| AudioEngine.AvailableMonotone | audio/engine.py:43-47 | no sequence of engine calls turns `available` back on or alters the specs |
| AudioEngine.InitTwice | audio/engine.py:40-47 | with the backend's answers fixed, a second `init` returns the engine the first produced: it short-circuits after a success, and a retried mixer open fails again |
| AudioEngine.ShutdownTwice | audio/engine.py:87-91 | `shutdown` twice is `shutdown` once |
| AudioEngine.LoadOneKeepsOthers | audio/engine.py:48-58 | loading one spec leaves how a spec with another key and channel was classified as it was |
| AudioEngine.LoadOneClassifiesNew | audio/engine.py:49-58 | after loading, a fresh spec is missing exactly when its file is absent or fails to load; otherwise it has a sound and its own channel at its own volume |
| AudioEngine.LoadAllClassifies | audio/engine.py:48-58 | after the loop every spec is in exactly one of the two cases, and only spec keys and channels are bound |
| AudioEngine.InitClassifies | audio/engine.py:40-59 | a successful `init` on a fresh engine classifies every spec and never binds two keys to one channel |
| SoundPanel.IndexByKey | ui/sound_panel.py:33 | the table holds exactly the keys of the list; each maps to an index carrying that key, the last such index |
| SoundPanel.IndexByKeyDistinct | ui/sound_panel.py:33 | with distinct keys the table inverts the list |
| SoundPanel.NewPanel | ui/sound_panel.py:22-33 | the panel starts on index 0 with the given layout, a valid table that knows every key, and nothing shown |
| SoundPanel.FilledCells | ui/sound_panel.py:60-61 | the filled count is never above the width, and equals `round(volume * width)` when that is in range |
| SoundPanel.VolumeBar | ui/sound_panel.py:58-62 | the bar has exactly `width` cells; cell i is full iff i is below the filled count, and light-shaded otherwise |
| SoundPanel.FilledCellsInRange | ui/sound_panel.py:60-61 | for a volume in [0, 100] the clamp never changes the rounded count |
| SoundPanel.FilledCellsMonotone | ui/sound_panel.py:59-62 | a louder sound never shows a shorter bar; volume 0 shows no filled cell and volume 100 a full bar |
| SoundPanel.PercentOf | ui/sound_panel.py:65 | the percentage shown is the volume in hundredths |
| SoundPanel.PercentFieldReadsBack | ui/sound_panel.py:65-68 | the percentage field is at least two columns wide, blanks then the digits, and the digits read back as the volume |
| SoundPanel.StyleOf | ui/sound_panel.py:70-73 | playing wins and gives the active style; a non-playing unavailable sound is dimmed; anything else has no style |
| SoundPanel.EntryLineLayout | ui/sound_panel.py:68 | the unpadded entry line starts with the indicator and shows the bar between `[` and `] ` at the column after the name, followed by the percentage |
| SoundPanel.EntryLineShowsName | ui/sound_panel.py:68 | the unpadded entry line shows the name from column 2, followed by blanks up to the end of its 9-column field |
| SoundPanel.EntryTextShowsName | ui/sound_panel.py:68-69 | the same holds after `ljust(36)` |
| SoundPanel.EntryTextLayout | ui/sound_panel.py:68-69 | an entry is at least 36 columns, starts with the indicator, and shows the bar between `[` and `] ` followed by the percentage |
| SoundPanel.FormatEntry | ui/sound_panel.py:64-74 | an entry starts with `>` iff it is selected, with a blank otherwise, is at least 36 columns, and carries the style of its state |
| SoundPanel.FormatEntryShowsName | ui/sound_panel.py:64-69 | each entry shows its sound's name after the indicator and a blank, padded with blanks to the name column |
| SoundPanel.FormatEntryShowsVolume | ui/sound_panel.py:64-69 | each entry shows the sound's volume bar and percentage at fixed columns after the name |
| SoundPanel.KnownKeys | ui/sound_panel.py:79-82 | the keys kept from a row are table keys and no more numerous than the row |
| SoundPanel.KnownKeysMembers | ui/sound_panel.py:79-82 | a key is kept iff it is in the row and in the table |
| SoundPanel.KnownKeysAllKnown | ui/sound_panel.py:79-82 | a row whose keys are all known is kept whole, in order |
| SoundPanel.RenderRow | ui/sound_panel.py:78-88 | a drawn row has one entry per key of the row that the table knows, and no more |
| SoundPanel.RenderRowEntries | ui/sound_panel.py:79-88 | entry j of a drawn row is the formatted entry of the row's j-th known key, i.e. of the record that key indexes, in row order |
| SoundPanel.RenderRowAppend | ui/sound_panel.py:79-88 | drawing a row is compositional over the row's keys |
| SoundPanel.UnknownRowIsEmpty | ui/sound_panel.py:89-92 | a row with no known key draws nothing |
| SoundPanel.Render | ui/sound_panel.py:76-93 | one drawn row per layout row |
| SoundPanel.RenderIgnoresShown | ui/sound_panel.py:76-93 | drawing reads the layout, table, selection and records, never what was drawn before |
| SoundPanel.LayoutRowsComplete | ui/sound_panel.py:76-93 | with every layout key known, each row has one entry per key, in order, marked exactly for the selected sound |
| SoundPanel.RefreshRows | ui/sound_panel.py:76-93 | the refresh replaces what is shown by the drawing of the current state and changes nothing else |
| SoundPanel.UpdateRow | ui/sound_panel.py:54-56 | an index out of range is ignored; one in range redraws; nothing else changes |
| SoundPanel.MoveSelection | ui/sound_panel.py:48-52 | a no-op on an empty list; otherwise the new index is in [0, N), congruent to old + delta modulo N, and the rows are redrawn |
| SoundPanel.MoveSelectionLands | ui/sound_panel.py:51 | on a non-empty list one move lands on (old + delta) mod N |
| SoundPanel.MovesSelected | ui/sound_panel.py:51 | k moves by delta land on (start + k * delta) mod N |
| SoundPanel.NextCycle | ui/sound_panel.py:51 | N moves forward return to the start |
| SoundPanel.PreviousWrapsFromFirst | ui/sound_panel.py:51 | moving back from index 0 lands on N - 1: the selection wraps rather than clamps |
| SoundPanel.NextThenPrevious | ui/sound_panel.py:51 | forward then back is the identity on the selection |
| AmbientApp.BuildSounds | ui/app.py:106-128 | entry i gives the record (key, name, 50, not playing, file present) and the spec (key, name, file, channel i, 50) |
| AmbientApp.NewApp | ui/app.py:101-134 | one record per entry, a panel at index 0 over the layout with a valid table, and a fresh available engine |
| AmbientApp.NewAppShape | ui/app.py:108-128 | construction keeps catalogue order, starts every sound at 50 and not playing, and gives spec i channel i, so channels are unique and keys are as distinct as the catalogue's |
| AmbientApp.MarkMissing | ui/app.py:143-148 | `available` is lowered exactly for reported keys, every other field is kept, `playing` included; with nothing reported nothing changes; otherwise the rows are redrawn |
| AmbientApp.Mount | ui/app.py:141-148 | mounting initializes the engine; each record becomes unavailable exactly when the engine reports its key missing, with every other field kept; the panel keeps its selection, layout and table, and shows the drawing of the marked records |
| AmbientApp.AdjustVolume | ui/app.py:160-170 | the new volume is the old one plus delta clamped to [0, 100]; if it is unchanged nothing changes and no call is issued; otherwise only the selected record's volume changes, exactly one `set_volume(key, new)` is issued, and the rows are redrawn |
| AmbientApp.VolumeUp | ui/app.py:175-176 | volume up adds 5 hundredths, stopping at 100; at 100 it changes nothing and issues no call; below 100 it issues one `set_volume` for the selected key with the new volume and redraws the rows; only the selected record's volume changes, with its key, name, `playing` and `available` kept; the other records, the selection, the layout and the table are unchanged |
| AmbientApp.VolumeDown | ui/app.py:172-173 | volume down removes 5 hundredths, stopping at 0; at 0 it changes nothing and issues no call; above 0 it issues one `set_volume` for the selected key with the new volume and redraws the rows; only the selected record's volume changes, with its key, name, `playing` and `available` kept; the other records, the selection, the layout and the table are unchanged |
| AmbientApp.Select | ui/app.py:178-182 | selecting issues no engine call and keeps the records; with no sounds it changes nothing; otherwise the selection moves to (old + delta) mod N, the layout and table are kept, and the redrawn rows are on screen |
| AmbientApp.ToggleSelected | ui/app.py:184-196 | an unavailable sound is refused with no call; otherwise only its `playing` flips and one call is issued, `start(key)` iff it now plays and `stop(key)` otherwise; the rows are redrawn |
| AmbientApp.Dispatch | ui/app.py:91-96 | every key binding keeps a valid selection valid and the keys of the records, and issues at most one playback call; up moves the selection to (old - 1) mod N and down to (old + 1) mod N; with no sounds only the selection keys are accepted and they change nothing |
| AmbientApp.Step | ui/app.py:91-96 | a key press keeps a valid selection valid, and does nothing when there are no sounds |
| AmbientApp.Run | ui/app.py:91-96 | any accepted key sequence keeps a valid selection valid, and does nothing when there are no sounds |
| AmbientApp.Quit | ui/app.py:151-152 | quitting clears the engine's `initialized` flag and changes nothing else, in the engine or the mixer |
| MixerInvariants.DispatchKeepsConsistent | ui/app.py:160-196 | every command keeps volumes in [0, 100], never lets an unavailable sound play, and leaves the current state on screen |
| MixerInvariants.AdjustVolumeKeepsSynced | ui/app.py:160-170 | after a volume command the engine channel of each available sound still loops it iff it plays, at its recorded volume |
| MixerInvariants.ToggleKeepsSynced | ui/app.py:184-196 | the same after a toggle |
| MixerInvariants.StepKeepsSynced | ui/app.py:91-96 | the same after any key press |
| MixerInvariants.DownEngineIgnoresCalls | audio/engine.py:61-85 | an unavailable engine ignores every start, stop and volume call |
| MixerInvariants.RunKeepsInvariants | ui/app.py:160-196 | any key sequence keeps the mixer consistent, keeps the engine in step with it, and leaves an unavailable engine untouched |
| MixerInvariants.MarkMissingKeepsConsistent | ui/app.py:143-148 | marking sounds missing before any sound plays keeps the mixer consistent, redrawn rows included |
| MixerInvariants.RefreshedConsistent | ui/sound_panel.py:76-93 | drawing the rows of a well-formed mixer with volumes in range and nothing playing makes the screen show the state |
| MixerInvariants.FreshMountConsistent | ui/app.py:141-148 | mounting any well-formed application whose records are fresh (volumes in range, nothing playing) leaves the mixer consistent |
| MixerInvariants.MountConsistent | ui/app.py:141-148 | after mounting the mixer is consistent: valid selection, volumes in range, no unavailable sound playing, and the screen showing the state |
| MixerInvariants.MountSynced | ui/app.py:141-148 | when the device opens and keys are distinct, each sound left available after mounting has an idle channel of its own at volume 50 |
| MixerInvariants.MountEngineDown | audio/engine.py:43-47 | when the device fails, the mounted engine is unavailable, uninitialized and unbound |
| MixerInvariants.CatalogueKeysDistinct | ui/app.py:24-31 | the six catalogue keys are distinct |
| MixerInvariants.CatalogueSafety | ui/app.py:101-196 | for the real catalogue, any present files, any backend and any key sequence: no unavailable sound plays, volumes stay in [0, 100], the screen shows the state, and the engine mirrors the mixer when the device opened and stays down when it did not |
| AppProperties.ToggleTwice | ui/app.py:184-196 | toggling twice restores the mixer state, and the two calls issued are `start` and `stop` of the same key, in the order the state dictates |
| AppProperties.UpWrapsFromFirst | ui/app.py:92 | the up key on the first sound selects the last one |
| AppProperties.DownThenUp | ui/app.py:178-182 | the down key then the up key put the selection back where it was, wrapping at either end, with no engine call |
| AppProperties.QuitTwice | ui/app.py:151-152 | quitting twice is quitting once |
| AppProperties.RepeatedKeyAtLimit | ui/app.py:165-167 | volume up at 100 and volume down at 0, pressed any number of times, change neither the state nor the engine |
| AppProperties.StartupPanel | ui/sound_panel.py:22-33 | with distinct catalogue keys, after startup the panel's table maps catalogue key i to index i, the selection is on the first sound, and the screen shows the state |
| AppProperties.MountedRows | ui/sound_panel.py:76-93 | after mounting, with every layout key a catalogue key, each row has one entry per layout key and the marker is on exactly the first sound's entries |
| AppProperties.CatalogueLayoutKnown | ui/app.py:24-37 | every key of the catalogue layout names a catalogue entry, so no layout key is skipped |
| AppProperties.CatalogueRows | ui/app.py:33-37 | the catalogue's panel shows rows of three, none and three entries; the first row opens with the marked entry of "sea", and the third row's first entry, for "fire", is unmarked |
| AppProperties.MountWithFailedMixer | ui/app.py:141-148 | with a failed device mounting only draws the rows and marks the engine unavailable; no sound is marked missing |
| AppProperties.ToggleOnDownEngine | ui/app.py:184-196 | on an unavailable engine a toggle of an available sound still flips `playing` while the engine stays as it was |
| AppProperties.FailedDeviceKeepsRecords | ui/app.py:141-147 | mounting on a failed device keeps every record available, and toggling a silent selected sound marks it playing while the engine stays as it was |
| AppProperties.BackendFailureQuirk | ui/app.py:141-147 | with every file present and a failed device, all sounds stay available after mounting and space marks the first one playing though nothing sounds |
| AppProperties.EmptyCatalogueHasNoSelection | ui/app.py:154-158 | with no sounds the selection 0 addresses nothing (the `None` guard never fires), and moving the selection is a no-op |
| AppProperties.EmptyCatalogueIgnoresMoves | ui/sound_panel.py:48-50 | after starting with no sounds the up and down keys are accepted and the others are not, and any sequence of up and down keys leaves the application as it was |

## Left out

- The quote service (`services/quotes.py`) and the quote panel (`ui/quote_panel.py`), with the `r` binding and the thread hop in `_refresh_quote`. They are network I/O, widget text and concurrency, independent of the mixer.
- Textual plumbing: CSS, `compose`, widget lifecycle, `Static.update`, the `q` binding, and rich `Text` styling internals. A drawn row is kept as its list of entries. Joining the entries with three blanks into one `Text` is not modelled.
- Mount order: the panel draws its rows first, then the application initializes the engine and marks missing sounds. The quote refresh that follows is left out.
- Floating point: volumes are integer hundredths. Drift from repeated 0.05 additions in the source is not modelled, so "unchanged at the limit" is exact here.
- Path resolution of the sound directory. The two `exists()` checks, one at construction (ui/app.py:110) and one in `init` (audio/engine.py:49), are independent answers: `files` for the application and `Backend.files` for the engine. The model thus also covers a file that disappears in between, and every statement about the whole application, `MixerInvariants.CatalogueSafety` included, holds for any pair.
- pygame: `mixer.init`, `Sound` loading and `Channel` become the `Backend` outcomes and abstract channel records. A channel never touched reads as idle at full volume, which is pygame's default.
- AudioEngine.Shutdown: models the flag only. The effect of `pygame.mixer.quit` on channels is not modelled, so the channel table survives a shutdown.
- An empty catalogue: the source would raise `IndexError` on the first volume or toggle command, because `_selected_state` indexes the empty list (ui/app.py:154-158). The up and down keys return early in `move_selection` (ui/sound_panel.py:49-50). `Accepts` therefore admits only those two keys for an empty list, and `EmptyCatalogueIgnoresMoves` shows they change nothing. The crash itself is not modelled.
- The mixer's channel count: `pygame.mixer.Channel(i)` raises for an index past the number of allocated channels, eight by default, and that call sits outside the `try` (audio/engine.py:57). The model lets every channel index succeed. Statements about arbitrary catalogues (`AudioEngine.InitClassifies`, `MixerInvariants.MountConsistent`, `MixerInvariants.MountSynced`, `AppProperties.StartupPanel` and the like) therefore speak of catalogues of at most eight entries. The real catalogue has six, so `MixerInvariants.CatalogueSafety` is unaffected.
- AudioEngine.InitTwice: each backend answer is fixed for the whole run, so a mixer open retried after a failure fails again. In the source a retried `pygame.mixer.init()` could succeed and bind every sound while `available` stays false (audio/engine.py:41-47). The model does not cover that case.
- AmbientApp.Step: states only that the selection stays valid. What a step does to the state and the engine is stated by `Dispatch`'s commands and the `MixerInvariants` lemmas.
- AmbientApp.Run: the same; its content is in `MixerInvariants.RunKeepsInvariants`.
- SoundPanel.Render: states only the number of rows. The rows' content is stated by `RenderRow` and `LayoutRowsComplete`.

=== FILE: app.dfy ===
/** The mixer command layer (ui/app.py): the sound catalogue, construction
    of one state record and one engine spec per catalogue entry, the mount
    step that marks missing sounds, and the key commands. Each command is a
    pure function from the mixer state to the new state and the list of
    engine calls it issues; `Step` then hands those calls to the engine. */
module AmbientApp {
  import opened Common
  import opened Numeric
  import opened SoundPanel
  import opened AudioEngine

  /** `SoundConfig`: one catalogue entry. */
  datatype SoundConfig = SoundConfig(key: Key, name: string, filename: string)

  /** `SOUND_CONFIGS`. */
  const SoundConfigs: seq<SoundConfig> := [
    SoundConfig("sea", "Sea", "sea.ogg"),
    SoundConfig("fire", "Fire", "fire.ogg"),
    SoundConfig("gull", "Sea Gull", "gull.ogg"),
    SoundConfig("rain", "Rain", "rain.ogg"),
    SoundConfig("lightning", "Lightning", "lightning.ogg"),
    SoundConfig("cafe", "Busy Cafe", "cafe.ogg")
  ]

  /** `SOUND_LAYOUT`: three rows, the middle one empty. */
  const SoundLayout: seq<seq<Key>> := [
    ["sea", "gull", "lightning"],
    [],
    ["fire", "rain", "cafe"]
  ]

  /** 0.5 and 0.05 in hundredths. */
  const InitialVolume: int := 50
  const VolumeStep: int := 5

  /** The state the commands act on: the sound records and the panel that
      shares them. */
  datatype Mixer = Mixer(sounds: seq<SoundState>, panel: Panel)

  datatype App = App(mixer: Mixer, engine: Engine)

  /** The key bindings that reach the mixer: up, down, left, right, space. */
  datatype Command = KeyUp | KeyDown | KeyLeft | KeyRight | KeySpace

  /** The selection addresses a sound and the key table addresses sounds. */
  predicate WellFormed(m: Mixer) {
    && IndexValid(m.panel, m.sounds)
    && 0 <= m.panel.selected < |m.sounds|
  }

  /** The catalogue's keys, in order. */
  function KeysOfConfigs(configs: seq<SoundConfig>): (r: seq<Key>)
    ensures |r| == |configs| && forall i :: 0 <= i < |configs| ==> r[i] == configs[i].key
  {
    seq(|configs|, i requires 0 <= i < |configs| => configs[i].key)
  }

  // ---------------------------------------------------------------------
  // Construction
  // ---------------------------------------------------------------------

  /** The loop of `__init__` over the catalogue: per entry, a state record
      whose availability is whether the file exists, and an engine spec on
      the channel numbered by the entry's position. */
  function BuildSounds(configs: seq<SoundConfig>, files: set<string>): (r: (seq<SoundState>, seq<SoundSpec>))
    ensures |r.0| == |configs| && |r.1| == |configs|
    ensures forall i :: 0 <= i < |configs| ==>
      && r.0[i] == SoundState(configs[i].key, configs[i].name, InitialVolume, false, configs[i].filename in files)
      && r.1[i] == SoundSpec(configs[i].key, configs[i].name, configs[i].filename, i, InitialVolume)
    decreases |configs|
  {
    if configs == [] then ([], [])
    else
      var n := |configs| - 1;
      var c := configs[n];
      var prev := BuildSounds(configs[..n], files);
      assert forall i :: 0 <= i < n ==> configs[..n][i] == configs[i];
      (prev.0 + [SoundState(c.key, c.name, InitialVolume, false, c.filename in files)],
       prev.1 + [SoundSpec(c.key, c.name, c.filename, n, InitialVolume)])
  }

  /** `AmbientNoiseApp.__init__`: the state records, the engine over the
      specs, and the panel over the records. */
  function NewApp(configs: seq<SoundConfig>, layout: seq<seq<Key>>, files: set<string>): (a: App)
    ensures |a.mixer.sounds| == |configs|
    ensures IndexValid(a.mixer.panel, a.mixer.sounds)
    ensures a.mixer.panel.selected == 0 && a.mixer.panel.layout == layout
    ensures !a.engine.initialized && a.engine.available && Unbound(a.engine)
  {
    var built := BuildSounds(configs, files);
    App(Mixer(built.0, NewPanel(built.0, layout)), NewEngine(built.1))
  }

  /** Construction yields one record per catalogue entry, in catalogue
      order, at volume 50 and not playing; the engine spec of entry i has
      the same key and channel i, so channels are unique. */
  lemma NewAppShape(configs: seq<SoundConfig>, layout: seq<seq<Key>>, files: set<string>)
    ensures var a := NewApp(configs, layout, files);
      && |a.mixer.sounds| == |configs| && |a.engine.specs| == |configs|
      && (forall i :: 0 <= i < |configs| ==>
            && a.mixer.sounds[i].key == configs[i].key == a.engine.specs[i].key
            && a.mixer.sounds[i].name == configs[i].name
            && a.mixer.sounds[i].volume == InitialVolume == a.engine.specs[i].volume
            && !a.mixer.sounds[i].playing
            && (a.mixer.sounds[i].available <==> configs[i].filename in files)
            && a.engine.specs[i].file == configs[i].filename
            && a.engine.specs[i].channel == i)
      && DistinctChannels(a.engine.specs)
      && (DistinctKeys(KeysOfConfigs(configs)) ==> DistinctKeys(KeysOfSpecs(a.engine.specs)))
  {
  }

  // ---------------------------------------------------------------------
  // Mount
  // ---------------------------------------------------------------------

  /** The marking loop of `on_mount`: every record whose key the engine
      reports missing becomes unavailable, nothing else changes (`playing`
      included), and the rows are redrawn when something was marked. */
  function MarkMissing(m: Mixer, missing: set<Key>): (r: Mixer)
    requires IndexValid(m.panel, m.sounds)
    ensures |r.sounds| == |m.sounds|
    ensures forall i :: 0 <= i < |m.sounds| ==>
      && r.sounds[i].key == m.sounds[i].key
      && r.sounds[i].name == m.sounds[i].name
      && r.sounds[i].volume == m.sounds[i].volume
      && r.sounds[i].playing == m.sounds[i].playing
      && (r.sounds[i].available <==> m.sounds[i].available && m.sounds[i].key !in missing)
    ensures r.panel.(shown := m.panel.shown) == m.panel
    ensures (forall i :: 0 <= i < |m.sounds| ==> m.sounds[i].key !in missing) ==> r == m
    ensures (exists i :: 0 <= i < |m.sounds| && m.sounds[i].key in missing) ==> r.panel.shown == Render(r.sounds, r.panel)
  {
    var sounds := seq(|m.sounds|, i requires 0 <= i < |m.sounds| =>
      if m.sounds[i].key in missing then m.sounds[i].(available := false) else m.sounds[i]);
    if exists i :: 0 <= i < |m.sounds| && m.sounds[i].key in missing then
      Mixer(sounds, RefreshRows(m.panel, sounds))
    else
      assert sounds == m.sounds;
      m
  }

  /** Mounting: the panel draws its rows, then `on_mount` initializes the
      engine and marks the keys it reports missing. */
  function Mount(a: App, b: Backend): (r: App)
    requires IndexValid(a.mixer.panel, a.mixer.sounds)
    ensures r.engine == Init(a.engine, b)
    ensures |r.mixer.sounds| == |a.mixer.sounds|
    ensures IndexValid(r.mixer.panel, r.mixer.sounds)
    ensures r.mixer.panel.selected == a.mixer.panel.selected
    ensures forall i :: 0 <= i < |a.mixer.sounds| ==>
      r.mixer.sounds[i] == a.mixer.sounds[i].(available := a.mixer.sounds[i].available && a.mixer.sounds[i].key !in r.engine.missing)
    ensures r.mixer.panel.(shown := a.mixer.panel.shown) == a.mixer.panel
    ensures r.mixer.panel.shown == Render(r.mixer.sounds, r.mixer.panel)
  {
    var p := RefreshRows(a.mixer.panel, a.mixer.sounds);
    RenderIgnoresShown(a.mixer.sounds, a.mixer.panel, p.shown);
    var e := Init(a.engine, b);
    App(MarkMissing(Mixer(a.mixer.sounds, p), e.missing), e)
  }

  /** Starting the application: construction, then mounting. */
  function Startup(configs: seq<SoundConfig>, layout: seq<seq<Key>>, files: set<string>, b: Backend): App {
    Mount(NewApp(configs, layout, files), b)
  }

  // ---------------------------------------------------------------------
  // Commands
  // ---------------------------------------------------------------------

  /** `_adjust_volume`: clamp the selected sound's volume plus delta to
      [0, 100]; if that is the old volume, change nothing and call nothing;
      otherwise store it, issue one `set_volume` for that sound's key, and
      redraw. */
  function AdjustVolume(m: Mixer, delta: int): (r: (Mixer, seq<Call>))
    requires WellFormed(m)
    ensures |r.0.sounds| == |m.sounds|
    ensures WellFormed(r.0)
    ensures var i := m.panel.selected;
      var was := m.sounds[i].volume;
      var nv := r.0.sounds[i].volume;
      && 0 <= nv <= MaxVolume
      && (0 <= was + delta <= MaxVolume ==> nv == was + delta)
      && (was + delta < 0 ==> nv == 0)
      && (was + delta > MaxVolume ==> nv == MaxVolume)
      && (nv == was ==> r == (m, []))
      && (nv != was ==>
            && r.1 == [SetVolume(m.sounds[i].key, nv)]
            && r.0.sounds[i] == m.sounds[i].(volume := nv)
            && (forall j :: 0 <= j < |m.sounds| && j != i ==> r.0.sounds[j] == m.sounds[j])
            && r.0.panel.(shown := m.panel.shown) == m.panel
            && r.0.panel.shown == Render(r.0.sounds, r.0.panel))
  {
    var i := m.panel.selected;
    var s := m.sounds[i];
    var nv := Clamp(0, MaxVolume, s.volume + delta);
    if nv == s.volume then (m, [])
    else
      var sounds := m.sounds[i := s.(volume := nv)];
      (Mixer(sounds, UpdateRow(m.panel, sounds, i)), [SetVolume(s.key, nv)])
  }

  /** `action_volume_up`: five hundredths louder, stopping at 100; at 100 the
      key does nothing. */
  function VolumeUp(m: Mixer): (r: (Mixer, seq<Call>))
    requires WellFormed(m)
    ensures |r.0.sounds| == |m.sounds|
    ensures WellFormed(r.0)
    ensures r.0.sounds[m.panel.selected] == m.sounds[m.panel.selected].(volume := r.0.sounds[m.panel.selected].volume)
    ensures r.1 != [] ==> r.0.panel.shown == Render(r.0.sounds, r.0.panel)
    ensures forall j :: 0 <= j < |m.sounds| && j != m.panel.selected ==> r.0.sounds[j] == m.sounds[j]
    ensures r.0.panel.(shown := m.panel.shown) == m.panel
    ensures var v := m.sounds[m.panel.selected].volume;
      && (0 <= v <= MaxVolume ==>
            r.0.sounds[m.panel.selected].volume == if v + VolumeStep <= MaxVolume then v + VolumeStep else MaxVolume)
      && (v == MaxVolume ==> r == (m, []))
      && (v < MaxVolume ==> r.1 == [SetVolume(m.sounds[m.panel.selected].key, r.0.sounds[m.panel.selected].volume)])
  {
    AdjustVolume(m, VolumeStep)
  }

  /** `action_volume_down`: five hundredths quieter, stopping at 0; at 0 the
      key does nothing. */
  function VolumeDown(m: Mixer): (r: (Mixer, seq<Call>))
    requires WellFormed(m)
    ensures |r.0.sounds| == |m.sounds|
    ensures WellFormed(r.0)
    ensures r.0.sounds[m.panel.selected] == m.sounds[m.panel.selected].(volume := r.0.sounds[m.panel.selected].volume)
    ensures r.1 != [] ==> r.0.panel.shown == Render(r.0.sounds, r.0.panel)
    ensures forall j :: 0 <= j < |m.sounds| && j != m.panel.selected ==> r.0.sounds[j] == m.sounds[j]
    ensures r.0.panel.(shown := m.panel.shown) == m.panel
    ensures var v := m.sounds[m.panel.selected].volume;
      && (0 <= v <= MaxVolume ==>
            r.0.sounds[m.panel.selected].volume == if v - VolumeStep >= 0 then v - VolumeStep else 0)
      && (v == 0 ==> r == (m, []))
      && (v > 0 ==> r.1 == [SetVolume(m.sounds[m.panel.selected].key, r.0.sounds[m.panel.selected].volume)])
  {
    AdjustVolume(m, -VolumeStep)
  }

  /** `action_select_previous` / `action_select_next`: move the selection
      and issue no engine call. With no sounds the move is refused, so these
      are the two commands an empty catalogue accepts. */
  function Select(m: Mixer, delta: int): (r: (Mixer, seq<Call>))
    requires IndexValid(m.panel, m.sounds)
    ensures r.1 == [] && r.0.sounds == m.sounds
    ensures m.sounds == [] ==> r.0 == m
    ensures m.sounds != [] ==> WellFormed(r.0) && r.0.panel.shown == Render(r.0.sounds, r.0.panel)
    ensures m.sounds != [] ==>
      && r.0.panel.selected == (m.panel.selected + delta) % |m.sounds|
      && r.0.panel.layout == m.panel.layout && r.0.panel.indexByKey == m.panel.indexByKey
  {
    var r := (Mixer(m.sounds, MoveSelection(m.panel, m.sounds, delta)), []);
    if m.sounds == [] then r
    else MoveSelectionLands(m.panel, m.sounds, delta); r
  }

  /** `action_toggle`: refused for an unavailable sound; otherwise flip
      `playing`, issue `start` for the key when it is now playing and
      `stop` otherwise, and redraw. */
  function ToggleSelected(m: Mixer): (r: (Mixer, seq<Call>))
    requires WellFormed(m)
    ensures WellFormed(r.0)
    ensures var i := m.panel.selected;
      var s := m.sounds[i];
      && (!s.available ==> r == (m, []))
      && (s.available ==>
            && |r.0.sounds| == |m.sounds|
            && r.0.sounds[i] == s.(playing := !s.playing)
            && (forall j :: 0 <= j < |m.sounds| && j != i ==> r.0.sounds[j] == m.sounds[j])
            && r.1 == [if r.0.sounds[i].playing then Start(s.key) else Stop(s.key)]
            && r.0.panel.(shown := m.panel.shown) == m.panel
            && r.0.panel.shown == Render(r.0.sounds, r.0.panel))
  {
    var i := m.panel.selected;
    var s := m.sounds[i];
    if !s.available then (m, [])
    else
      var s' := s.(playing := !s.playing);
      var sounds := m.sounds[i := s'];
      var call := if s'.playing then Start(s.key) else Stop(s.key);
      (Mixer(sounds, UpdateRow(m.panel, sounds, i)), [call])
  }

  /** A command the mixer can take: any, when the selection addresses a
      sound; only a selection move, when there are no sounds (volume and
      toggle would index the empty list). */
  predicate Accepts(m: Mixer, c: Command) {
    || WellFormed(m)
    || (m.sounds == [] && IndexValid(m.panel, m.sounds) && (c.KeyUp? || c.KeyDown?))
  }

  /** `BINDINGS`: which action each key runs. */
  function Dispatch(m: Mixer, c: Command): (r: (Mixer, seq<Call>))
    requires Accepts(m, c)
    ensures WellFormed(m) ==> WellFormed(r.0)
    ensures m.sounds == [] ==> r == (m, [])
    ensures m.sounds != [] && c == KeyUp ==> r.0.panel.selected == (m.panel.selected - 1) % |m.sounds|
    ensures m.sounds != [] && c == KeyDown ==> r.0.panel.selected == (m.panel.selected + 1) % |m.sounds|
    ensures |r.0.sounds| == |m.sounds|
    ensures forall i :: 0 <= i < |m.sounds| ==> r.0.sounds[i].key == m.sounds[i].key
    ensures |r.1| <= 1
    ensures forall call :: call in r.1 ==> call.Start? || call.Stop? || call.SetVolume?
  {
    match c
    case KeyUp => Select(m, -1)
    case KeyDown => Select(m, 1)
    case KeyLeft => VolumeDown(m)
    case KeyRight => VolumeUp(m)
    case KeySpace => ToggleSelected(m)
  }

  /** One key press: the mixer state changes first, then the engine receives
      the calls the command issued. */
  function Step(a: App, c: Command, b: Backend): (r: App)
    requires Accepts(a.mixer, c)
    ensures WellFormed(a.mixer) ==> WellFormed(r.mixer)
    ensures a.mixer.sounds == [] ==> r == a
  {
    var (m, calls) := Dispatch(a.mixer, c);
    App(m, ApplyAll(a.engine, calls, b))
  }

  function Run(a: App, cmds: seq<Command>, b: Backend): (r: App)
    requires forall i :: 0 <= i < |cmds| ==> Accepts(a.mixer, cmds[i])
    ensures WellFormed(a.mixer) ==> WellFormed(r.mixer)
    ensures a.mixer.sounds == [] ==> r == a
    decreases |cmds|
  {
    if cmds == [] then a
    else
      var a2 := Step(a, cmds[0], b);
      assert forall i :: 0 <= i < |cmds| - 1 ==> Accepts(a2.mixer, cmds[1..][i]) by {
        forall i | 0 <= i < |cmds| - 1 ensures Accepts(a2.mixer, cmds[1..][i]) {
          assert Accepts(a.mixer, cmds[i + 1]);
        }
      }
      Run(a2, cmds[1..], b)
  }

  /** Quitting: `on_shutdown` shuts the engine down. */
  function Quit(a: App): (r: App)
    ensures r.mixer == a.mixer
    ensures !r.engine.initialized
    ensures r.engine.(initialized := a.engine.initialized) == a.engine
  {
    a.(engine := Shutdown(a.engine))
  }
}

=== FILE: app_properties.dfy ===
/** Behaviour of the mixer commands beyond the invariants: toggling twice,
    pressing a volume key at its limit, the catalogue's rows, and the two
    quirks of the application as written (a failed audio device leaves every
    sound looking available; an empty catalogue has no selectable sound). */
module AppProperties {
  import opened Common
  import opened SoundPanel
  import opened AudioEngine
  import opened AmbientApp
  import opened MixerInvariants

  /** Toggling twice gives back the mixer state, and the second toggle issues
      the call opposite to the first. */
  lemma ToggleTwice(m: Mixer)
    requires WellFormed(m) && m.panel.shown == Render(m.sounds, m.panel)
    ensures ToggleSelected(ToggleSelected(m).0).0 == m
    ensures var s := m.sounds[m.panel.selected];
      s.available ==>
        && ToggleSelected(m).1 == [if s.playing then Stop(s.key) else Start(s.key)]
        && ToggleSelected(ToggleSelected(m).0).1 == [if s.playing then Start(s.key) else Stop(s.key)]
  {
    var i := m.panel.selected;
    var r1 := ToggleSelected(m).0;
    var r2 := ToggleSelected(r1).0;
    if m.sounds[i].available {
      assert r2.sounds == m.sounds;
      assert r2.panel == m.panel.(shown := r2.panel.shown);
      RenderIgnoresShown(m.sounds, m.panel, r2.panel.shown);
    }
  }

  /** Quitting a second time changes nothing: the engine is already shut
      down and the mixer was never touched. */
  lemma QuitTwice(a: App)
    ensures Quit(Quit(a)) == Quit(a)
  {
    ShutdownTwice(a.engine);
  }

  /** The up key on the first sound wraps to the last one. */
  lemma UpWrapsFromFirst(m: Mixer)
    requires WellFormed(m) && m.panel.selected == 0
    ensures Dispatch(m, KeyUp).0.panel.selected == |m.sounds| - 1
  {
    PreviousWrapsFromFirst(m.panel, m.sounds);
  }

  /** Down then up puts the selection back where it was, wrapping at either
      end of the list, and issues no engine call. */
  lemma DownThenUp(m: Mixer)
    requires WellFormed(m)
    ensures Dispatch(Dispatch(m, KeyDown).0, KeyUp).0.panel.selected == m.panel.selected
    ensures Dispatch(m, KeyDown).1 == [] && Dispatch(Dispatch(m, KeyDown).0, KeyUp).1 == []
  {
    NextThenPrevious(m.panel, m.sounds);
  }

  /** A key press that moves a volume past its limit is a no-op however often
      it is repeated: volume up at 100, volume down at 0. */
  lemma {:induction false} RepeatedKeyAtLimit(a: App, c: Command, k: nat, b: Backend)
    requires WellFormed(a.mixer)
    requires var v := a.mixer.sounds[a.mixer.panel.selected].volume;
      (c == KeyRight && v == MaxVolume) || (c == KeyLeft && v == 0)
    ensures Run(a, seq(k, _ => c), b) == a
    decreases k
  {
    if k > 0 {
      var cmds := seq(k, _ => c);
      assert cmds[0] == c;
      assert Dispatch(a.mixer, c) == (a.mixer, []);
      ApplyNone(a.engine, b);
      assert Step(a, c, b) == a;
      assert cmds[1..] == seq(k - 1, _ => c);
      RepeatedKeyAtLimit(a, c, k - 1, b);
    }
  }

  /** Every key of the layout names a catalogue entry. */
  predicate LayoutKeysKnown(configs: seq<SoundConfig>, layout: seq<seq<Key>>) {
    forall g, k :: 0 <= g < |layout| && k in layout[g] ==>
      exists j :: 0 <= j < |configs| && configs[j].key == k
  }

  /** After startup the panel's key table inverts the catalogue, the
      selection is on the first sound and the screen shows the state. */
  lemma StartupPanel(configs: seq<SoundConfig>, layout: seq<seq<Key>>, files: set<string>, b: Backend)
    requires |configs| > 0 && DistinctKeys(KeysOfConfigs(configs))
    ensures var m := Startup(configs, layout, files, b).mixer;
      && |m.sounds| == |configs|
      && m.panel.selected == 0 && m.panel.layout == layout
      && IndexValid(m.panel, m.sounds)
      && m.panel.shown == Render(m.sounds, m.panel)
    ensures forall i :: 0 <= i < |configs| ==>
      && configs[i].key in Startup(configs, layout, files, b).mixer.panel.indexByKey
      && Startup(configs, layout, files, b).mixer.panel.indexByKey[configs[i].key] == i
  {
    var a := NewApp(configs, layout, files);
    NewAppShape(configs, layout, files);
    MountConsistent(configs, layout, files, b);
    var m := Startup(configs, layout, files, b).mixer;
    assert m == Mount(a, b).mixer;
    assert m.panel.indexByKey == IndexByKey(a.mixer.sounds);
    forall i | 0 <= i < |configs|
      ensures configs[i].key in m.panel.indexByKey && m.panel.indexByKey[configs[i].key] == i
    {
      IndexByKeyDistinct(a.mixer.sounds, i);
    }
  }

  /** When every layout key names a catalogue entry, the panel after startup
      shows one entry per layout key, in layout order, and the marker sits
      exactly on the entries of the first sound. */
  lemma MountedRows(configs: seq<SoundConfig>, layout: seq<seq<Key>>, files: set<string>, b: Backend)
    requires |configs| > 0 && DistinctKeys(KeysOfConfigs(configs))
    requires LayoutKeysKnown(configs, layout)
    ensures |Startup(configs, layout, files, b).mixer.panel.shown| == |layout|
    ensures forall g :: 0 <= g < |layout| ==>
      |Startup(configs, layout, files, b).mixer.panel.shown[g]| == |layout[g]|
    ensures forall g, j :: 0 <= g < |layout| && 0 <= j < |layout[g]| ==>
      (">" <= Startup(configs, layout, files, b).mixer.panel.shown[g][j].text <==> layout[g][j] == configs[0].key)
  {
    StartupPanel(configs, layout, files, b);
    var m := Startup(configs, layout, files, b).mixer;
    var index := m.panel.indexByKey;
    forall g, k | 0 <= g < |layout| && k in layout[g]
      ensures k in index && (index[k] == 0 <==> k == configs[0].key)
    {
      var j :| 0 <= j < |configs| && configs[j].key == k;
    }
    LayoutRowsComplete(m.sounds, m.panel);
    forall g, j | 0 <= g < |layout| && 0 <= j < |layout[g]|
      ensures ">" <= m.panel.shown[g][j].text <==> layout[g][j] == configs[0].key
    {
      assert layout[g][j] in layout[g];
    }
  }

  /** Every key of the catalogue's layout names a catalogue entry. */
  lemma CatalogueLayoutKnown()
    ensures LayoutKeysKnown(SoundConfigs, SoundLayout)
  {
    forall g, k | 0 <= g < |SoundLayout| && k in SoundLayout[g]
      ensures exists j :: 0 <= j < |SoundConfigs| && SoundConfigs[j].key == k
    {
      if k == "sea" { assert SoundConfigs[0].key == k; }
      else if k == "fire" { assert SoundConfigs[1].key == k; }
      else if k == "gull" { assert SoundConfigs[2].key == k; }
      else if k == "rain" { assert SoundConfigs[3].key == k; }
      else if k == "lightning" { assert SoundConfigs[4].key == k; }
      else { assert SoundConfigs[5].key == k; }
    }
  }

  /** The catalogue's panel shows rows of three, none and three entries,
      with the marker on "sea" only. */
  lemma CatalogueRows(files: set<string>, b: Backend)
    ensures var m := Startup(SoundConfigs, SoundLayout, files, b).mixer;
      && |m.panel.shown| == 3
      && |m.panel.shown[0]| == 3 && m.panel.shown[1] == [] && |m.panel.shown[2]| == 3
      && ">" <= m.panel.shown[0][0].text
      && !(">" <= m.panel.shown[2][0].text)
  {
    CatalogueKeysDistinct();
    CatalogueLayoutKnown();
    MountedRows(SoundConfigs, SoundLayout, files, b);
    assert SoundLayout[0][0] == SoundConfigs[0].key;
    assert SoundLayout[2][0] != SoundConfigs[0].key;
  }

  /** When the mixer fails to open, mounting only draws the rows and marks
      the engine unavailable: nothing is reported missing. */
  lemma MountWithFailedMixer(a: App, b: Backend)
    requires IndexValid(a.mixer.panel, a.mixer.sounds)
    requires !b.mixerOpens && !a.engine.initialized && Unbound(a.engine)
    ensures Mount(a, b) == App(Mixer(a.mixer.sounds, RefreshRows(a.mixer.panel, a.mixer.sounds)),
                               a.engine.(available := false))
  {
    var e := Init(a.engine, b);
    var m0 := Mixer(a.mixer.sounds, RefreshRows(a.mixer.panel, a.mixer.sounds));
    assert MarkMissing(m0, e.missing) == m0;
  }

  /** On an unavailable engine, toggling an available sound still flips its
      record while the engine stays as it was. */
  lemma ToggleOnDownEngine(a: App, b: Backend)
    requires WellFormed(a.mixer) && !a.engine.available
    requires a.mixer.sounds[a.mixer.panel.selected].available
    ensures var i := a.mixer.panel.selected;
      && Step(a, KeySpace, b).mixer.sounds[i].playing == !a.mixer.sounds[i].playing
      && Step(a, KeySpace, b).engine == a.engine
  {
    DownEngineIgnoresCalls(a.engine, ToggleSelected(a.mixer).1, b);
  }

  /** Mounting on a device that fails to open keeps every record as built:
      an available sound that is selected and silent can still be toggled on,
      and the engine ignores it. */
  lemma FailedDeviceKeepsRecords(a0: App, b: Backend)
    requires WellFormed(a0.mixer) && !b.mixerOpens
    requires !a0.engine.initialized && Unbound(a0.engine)
    requires forall i :: 0 <= i < |a0.mixer.sounds| ==> a0.mixer.sounds[i].available
    requires !a0.mixer.sounds[a0.mixer.panel.selected].playing
    ensures var a := Mount(a0, b);
      && (forall i :: 0 <= i < |a.mixer.sounds| ==> a.mixer.sounds[i].available)
      && !a.engine.available
      && Step(a, KeySpace, b).mixer.sounds[a0.mixer.panel.selected].playing
      && Step(a, KeySpace, b).engine == a.engine
  {
    MountWithFailedMixer(a0, b);
    var a := Mount(a0, b);
    assert a.mixer.sounds == a0.mixer.sounds;
    ToggleOnDownEngine(a, b);
  }

  /** A mixer that fails to open does not make any sound unavailable: with
      every file present, every sound stays available, and toggling the
      selected one marks it playing while the engine does nothing. */
  lemma BackendFailureQuirk(configs: seq<SoundConfig>, layout: seq<seq<Key>>, files: set<string>, b: Backend)
    requires |configs| > 0 && !b.mixerOpens
    requires forall i :: 0 <= i < |configs| ==> configs[i].filename in files
    ensures var a := Mount(NewApp(configs, layout, files), b);
      && (forall i :: 0 <= i < |a.mixer.sounds| ==> a.mixer.sounds[i].available)
      && !a.engine.available
      && Step(a, KeySpace, b).mixer.sounds[0].playing
      && Step(a, KeySpace, b).engine == a.engine
  {
    NewAppShape(configs, layout, files);
    FailedDeviceKeepsRecords(NewApp(configs, layout, files), b);
  }

  /** With an empty catalogue the selection at 0 addresses no sound, so no
      volume or toggle command is accepted (the source would raise an
      IndexError on the first of them); moving the selection is a no-op. */
  lemma EmptyCatalogueHasNoSelection(layout: seq<seq<Key>>, files: set<string>, delta: int)
    ensures var m := NewApp([], layout, files).mixer;
      && !WellFormed(m)
      && MoveSelection(m.panel, m.sounds, delta) == m.panel
  {
  }

  /** After starting with an empty catalogue, the two selection keys are the
      only ones accepted, and any sequence of them leaves the application as
      it was. */
  lemma EmptyCatalogueIgnoresMoves(layout: seq<seq<Key>>, files: set<string>, b: Backend, cmds: seq<Command>)
    requires forall i :: 0 <= i < |cmds| ==> cmds[i].KeyUp? || cmds[i].KeyDown?
    ensures var m := Startup([], layout, files, b).mixer;
      && Accepts(m, KeyUp) && Accepts(m, KeyDown)
      && !Accepts(m, KeyLeft) && !Accepts(m, KeyRight) && !Accepts(m, KeySpace)
    ensures Run(Startup([], layout, files, b), cmds, b) == Startup([], layout, files, b)
  {
  }
}

=== FILE: common.dfy ===
/** Vocabulary shared by the audio engine, the sound panel and the app. */
module Common {

  /** A sound's identifier in the catalogue ("sea", "fire", ...). */
  type Key = string

  /** The conventional Some/None datatype, used where the source has `None`. */
  datatype Option<+T> = None | Some(value: T)

  /** Volumes are integer hundredths: 50 stands for the source's 0.5 and
      100 for full gain. */
  const MaxVolume: int := 100

  /** No key occurs twice. */
  predicate DistinctKeys(keys: seq<Key>) {
    forall i, j :: 0 <= i < j < |keys| ==> keys[i] != keys[j]
  }
}

=== FILE: engine.dfy ===
/** The audio engine (audio/engine.py): the `initialized` / `available`
    flags, the `missing` key set, the key-to-sound and key-to-channel
    bindings, and the mixer's channels. pygame is not modelled: whether the
    mixer opens, which asset files exist and which of them load are supplied
    as a Backend value, and a channel is an abstract record of what it loops
    and at which gain. */
module AudioEngine {
  import opened Common

  /** A loaded sound object; its identity is the asset file it came from. */
  datatype Sound = Sound(file: string)

  /** One mixer channel: the sound it loops forever, if any, and its gain in
      hundredths. */
  datatype Channel = Channel(looping: Option<Sound>, volume: int)

  /** A channel nobody has touched yet: silent, at pygame's default full gain. */
  const IdleChannel: Channel := Channel(None, MaxVolume)

  /** Catalogue entry handed to the engine: `SoundSpec`. */
  datatype SoundSpec = SoundSpec(key: Key, name: string, file: string, channel: nat, volume: int)

  /** What the backend and the filesystem answer: whether `pygame.mixer.init`
      succeeds, which asset files exist, and which of those load as sounds. */
  datatype Backend = Backend(mixerOpens: bool, files: set<string>, loadable: set<string>)

  datatype Engine = Engine(
    specs: seq<SoundSpec>,
    initialized: bool,
    available: bool,
    sounds: map<Key, Sound>,
    channels: map<Key, nat>,
    missing: set<Key>,
    mixer: map<nat, Channel>)

  /** The commands the engine exposes to its callers. */
  datatype Call =
    | InitCall
    | Start(key: Key)
    | Stop(key: Key)
    | SetVolume(key: Key, volume: int)
    | ShutdownCall

  /** Nothing loaded, bound, marked missing or touched on the mixer. */
  predicate Unbound(e: Engine) {
    && e.sounds == map[]
    && e.channels == map[]
    && e.missing == {}
    && e.mixer == map[]
  }

  /** The constructor `AudioEngine(specs)`. */
  function NewEngine(specs: seq<SoundSpec>): (e: Engine)
    ensures e.specs == specs
    ensures !e.initialized && e.available
    ensures Unbound(e)
  {
    Engine(specs, false, true, map[], map[], {}, map[])
  }

  function ChannelAt(mixer: map<nat, Channel>, i: nat): Channel {
    if i in mixer then mixer[i] else IdleChannel
  }

  /** The two failure causes of one spec during `init`: the file is absent,
      or loading it raises. */
  predicate LoadFails(s: SoundSpec, b: Backend) {
    s.file !in b.files || s.file !in b.loadable
  }

  /** The body of the loop over specs in `init`: a spec whose file is absent
      or fails to load is recorded missing and nothing else changes;
      otherwise its sound and channel are bound and that channel, and no
      other, takes the spec's volume. */
  function LoadOne(e: Engine, s: SoundSpec, b: Backend): (r: Engine)
    ensures LoadFails(s, b) ==> r == e.(missing := e.missing + {s.key})
    ensures !LoadFails(s, b) ==>
      && r.(sounds := e.sounds, channels := e.channels, mixer := e.mixer) == e
      && r.sounds == e.sounds[s.key := Sound(s.file)]
      && r.channels == e.channels[s.key := s.channel]
      && ChannelAt(r.mixer, s.channel) == ChannelAt(e.mixer, s.channel).(volume := s.volume)
      && (forall i :: i != s.channel ==> ChannelAt(r.mixer, i) == ChannelAt(e.mixer, i))
  {
    if s.file !in b.files then e.(missing := e.missing + {s.key})
    else if s.file !in b.loadable then e.(missing := e.missing + {s.key})
    else
      e.(sounds := e.sounds[s.key := Sound(s.file)],
         channels := e.channels[s.key := s.channel],
         mixer := e.mixer[s.channel := ChannelAt(e.mixer, s.channel).(volume := s.volume)])
  }

  /** The loop over specs in `init`, in catalogue order. */
  function LoadAll(e: Engine, specs: seq<SoundSpec>, b: Backend): (r: Engine)
    ensures r.specs == e.specs && r.initialized == e.initialized && r.available == e.available
    decreases |specs|
  {
    if specs == [] then e
    else LoadOne(LoadAll(e, specs[..|specs| - 1], b), specs[|specs| - 1], b)
  }

  /** `init`: a no-op once initialized; a mixer that fails to open leaves the
      engine unavailable and uninitialized with nothing bound; otherwise every
      spec is loaded and bound, and the engine becomes initialized. */
  function Init(e: Engine, b: Backend): (r: Engine)
    ensures e.initialized ==> r == e
    ensures !e.initialized && !b.mixerOpens ==> r == e.(available := false)
    ensures !e.initialized && b.mixerOpens ==> r.initialized && r.available == e.available
    ensures r.specs == e.specs
    ensures r.available ==> e.available
  {
    if e.initialized then e
    else if !b.mixerOpens then e.(available := false)
    else LoadAll(e, e.specs, b).(initialized := true)
  }

  /** The guard every playback call starts with. */
  predicate Playable(e: Engine, key: Key) {
    e.available && key !in e.missing
  }

  predicate Bound(e: Engine, key: Key) {
    key in e.sounds && key in e.channels
  }

  /** `start`: unless the engine is unavailable or the key missing, run
      `init`, then loop the key's sound on the key's channel, and on no other
      channel; a key left without a binding makes it a no-op. */
  function StartSound(e: Engine, key: Key, b: Backend): (r: Engine)
    ensures !Playable(e, key) ==> r == e
    ensures Playable(e, key) ==> r.(mixer := Init(e, b).mixer) == Init(e, b)
    ensures Playable(e, key) && !Bound(Init(e, b), key) ==> r == Init(e, b)
    ensures Playable(e, key) && Bound(Init(e, b), key) ==>
      && ChannelAt(r.mixer, Init(e, b).channels[key]) ==
         ChannelAt(Init(e, b).mixer, Init(e, b).channels[key]).(looping := Some(Init(e, b).sounds[key]))
      && (forall i :: i != Init(e, b).channels[key] ==> ChannelAt(r.mixer, i) == ChannelAt(Init(e, b).mixer, i))
    ensures r.available ==> e.available
  {
    if !e.available || key in e.missing then e
    else
      var e1 := Init(e, b);
      if key !in e1.sounds || key !in e1.channels then e1
      else
        var ch := e1.channels[key];
        e1.(mixer := e1.mixer[ch := ChannelAt(e1.mixer, ch).(looping := Some(e1.sounds[key]))])
  }

  /** `stop`: halt the key's channel, and only that channel; a no-op when the
      engine is unavailable, the key missing or not bound to a channel. */
  function StopSound(e: Engine, key: Key): (r: Engine)
    ensures !Playable(e, key) || key !in e.channels ==> r == e
    ensures r.(mixer := e.mixer) == e
    ensures Playable(e, key) && key in e.channels ==>
      var ch := e.channels[key];
      && ChannelAt(r.mixer, ch) == ChannelAt(e.mixer, ch).(looping := None)
      && (forall i :: i != ch ==> ChannelAt(r.mixer, i) == ChannelAt(e.mixer, i))
  {
    if !e.available || key in e.missing then e
    else if key !in e.channels then e
    else
      var ch := e.channels[key];
      e.(mixer := e.mixer[ch := ChannelAt(e.mixer, ch).(looping := None)])
  }

  /** `set_volume`: set the gain of the key's channel, and only that
      channel, whether or not it is playing; a no-op under the same
      conditions as `stop`. */
  function SetSoundVolume(e: Engine, key: Key, volume: int): (r: Engine)
    ensures !Playable(e, key) || key !in e.channels ==> r == e
    ensures r.(mixer := e.mixer) == e
    ensures Playable(e, key) && key in e.channels ==>
      var ch := e.channels[key];
      && ChannelAt(r.mixer, ch) == ChannelAt(e.mixer, ch).(volume := volume)
      && (forall i :: i != ch ==> ChannelAt(r.mixer, i) == ChannelAt(e.mixer, i))
  {
    if !e.available || key in e.missing then e
    else if key !in e.channels then e
    else
      var ch := e.channels[key];
      e.(mixer := e.mixer[ch := ChannelAt(e.mixer, ch).(volume := volume)])
  }

  /** `shutdown`: clears `initialized` and touches nothing else; a no-op on an
      engine that is not initialized. */
  function Shutdown(e: Engine): (r: Engine)
    ensures !r.initialized
    ensures r.(initialized := e.initialized) == e
    ensures !e.initialized ==> r == e
  {
    if !e.initialized then e else e.(initialized := false)
  }

  function Apply(e: Engine, c: Call, b: Backend): Engine {
    match c
    case InitCall => Init(e, b)
    case Start(k) => StartSound(e, k, b)
    case Stop(k) => StopSound(e, k)
    case SetVolume(k, v) => SetSoundVolume(e, k, v)
    case ShutdownCall => Shutdown(e)
  }

  /** Issue a sequence of calls in order. */
  function ApplyAll(e: Engine, calls: seq<Call>, b: Backend): Engine
    decreases |calls|
  {
    if calls == [] then e else ApplyAll(Apply(e, calls[0], b), calls[1..], b)
  }

  // ---------------------------------------------------------------------
  // Properties of the engine
  // ---------------------------------------------------------------------

  /** No call ever sets `available` back to true once it is false, and the
      specs never change. */
  lemma {:induction false} AvailableMonotone(e: Engine, calls: seq<Call>, b: Backend)
    ensures ApplyAll(e, calls, b).available ==> e.available
    ensures ApplyAll(e, calls, b).specs == e.specs
    decreases |calls|
  {
    if calls != [] {
      var e1 := Apply(e, calls[0], b);
      AvailableMonotone(e1, calls[1..], b);
    }
  }

  /** Running `init` a second time with the same backend changes nothing,
      whether the first attempt opened the mixer or not. */
  lemma InitTwice(e: Engine, b: Backend)
    ensures Init(Init(e, b), b) == Init(e, b)
  {
  }

  /** Calling `shutdown` twice equals calling it once. */
  lemma ShutdownTwice(e: Engine)
    ensures Shutdown(Shutdown(e)) == Shutdown(e)
  {
  }

  /** The specs' keys, in order. */
  function KeysOfSpecs(specs: seq<SoundSpec>): (r: seq<Key>)
    ensures |r| == |specs| && forall i :: 0 <= i < |specs| ==> r[i] == specs[i].key
  {
    seq(|specs|, i requires 0 <= i < |specs| => specs[i].key)
  }

  predicate DistinctChannels(specs: seq<SoundSpec>) {
    forall i, j :: 0 <= i < j < |specs| ==> specs[i].channel != specs[j].channel
  }

  function SpecKeys(specs: seq<SoundSpec>): set<Key> {
    set i | 0 <= i < |specs| :: specs[i].key
  }

  function SpecChannels(specs: seq<SoundSpec>): set<nat> {
    set i | 0 <= i < |specs| :: specs[i].channel
  }

  /** Two keys never share a channel. */
  predicate ChannelsInjective(e: Engine) {
    forall k1, k2 :: k1 in e.channels && k2 in e.channels && k1 != k2 ==> e.channels[k1] != e.channels[k2]
  }

  /** After loading, a spec is in exactly one of two cases: its key is
      missing (file absent or load failed), or it has both a sound and a
      channel binding, the channel being the spec's own, idle, at the spec's
      volume. */
  predicate Classified(r: Engine, s: SoundSpec, b: Backend) {
    && (s.key in r.missing <==> LoadFails(s, b))
    && (s.key in r.sounds <==> !LoadFails(s, b))
    && (s.key in r.channels <==> !LoadFails(s, b))
    && (!LoadFails(s, b) ==>
          && r.sounds[s.key] == Sound(s.file)
          && r.channels[s.key] == s.channel
          && ChannelAt(r.mixer, s.channel) == Channel(None, s.volume))
  }

  /** Loading one more spec leaves the classification of a spec with another
      key and another channel as it was. */
  lemma LoadOneKeepsOthers(r: Engine, s: SoundSpec, t: SoundSpec, b: Backend)
    requires Classified(r, t, b)
    requires t.key != s.key && t.channel != s.channel
    ensures Classified(LoadOne(r, s, b), t, b)
  {
  }

  /** Loading a spec whose key and channel are still untouched classifies it. */
  lemma LoadOneClassifiesNew(r: Engine, s: SoundSpec, b: Backend)
    requires s.key !in r.missing && s.key !in r.sounds && s.key !in r.channels
    requires s.channel !in r.mixer
    ensures Classified(LoadOne(r, s, b), s, b)
  {
  }

  lemma SpecSetsOfSnoc(specs: seq<SoundSpec>)
    requires |specs| > 0
    ensures SpecKeys(specs) == SpecKeys(specs[..|specs| - 1]) + {specs[|specs| - 1].key}
    ensures SpecChannels(specs) == SpecChannels(specs[..|specs| - 1]) + {specs[|specs| - 1].channel}
  {
    var n := |specs| - 1;
    var p := specs[..n];
    forall k | k in SpecKeys(specs) ensures k in SpecKeys(p) + {specs[n].key} {
      var i :| 0 <= i < |specs| && specs[i].key == k;
      if i < n { assert p[i] == specs[i]; }
    }
    forall k | k in SpecKeys(p) ensures k in SpecKeys(specs) {
      var i :| 0 <= i < |p| && p[i].key == k;
      assert specs[i] == p[i];
    }
    forall c | c in SpecChannels(specs) ensures c in SpecChannels(p) + {specs[n].channel} {
      var i :| 0 <= i < |specs| && specs[i].channel == c;
      if i < n { assert p[i] == specs[i]; }
    }
    forall c | c in SpecChannels(p) ensures c in SpecChannels(specs) {
      var i :| 0 <= i < |p| && p[i].channel == c;
      assert specs[i] == p[i];
    }
  }

  lemma {:induction false} LoadAllClassifies(e: Engine, specs: seq<SoundSpec>, b: Backend)
    requires Unbound(e)
    requires DistinctKeys(KeysOfSpecs(specs)) && DistinctChannels(specs)
    ensures var r := LoadAll(e, specs, b);
      && (forall i :: 0 <= i < |specs| ==> Classified(r, specs[i], b))
      && r.missing <= SpecKeys(specs)
      && r.sounds.Keys <= SpecKeys(specs)
      && r.channels.Keys <= SpecKeys(specs)
      && r.mixer.Keys <= SpecChannels(specs)
    decreases |specs|
  {
    if specs != [] {
      var n := |specs| - 1;
      var p := specs[..n];
      var s := specs[n];
      assert DistinctKeys(KeysOfSpecs(p)) && DistinctChannels(p);
      LoadAllClassifies(e, p, b);
      var r0 := LoadAll(e, p, b);
      SpecSetsOfSnoc(specs);
      assert s.key !in SpecKeys(p) && s.channel !in SpecChannels(p);
      LoadOneClassifiesNew(r0, s, b);
      forall i | 0 <= i < |specs|
        ensures Classified(LoadOne(r0, s, b), specs[i], b)
      {
        if i < n {
          assert specs[i] == p[i];
          LoadOneKeepsOthers(r0, s, p[i], b);
        }
      }
    }
  }

  /** On a freshly constructed engine whose specs have distinct keys and
      channels, a successful `init` classifies every spec, binds only spec
      keys, and never binds two keys to one channel. */
  lemma InitClassifies(e: Engine, b: Backend)
    requires Unbound(e) && !e.initialized && b.mixerOpens
    requires DistinctKeys(KeysOfSpecs(e.specs)) && DistinctChannels(e.specs)
    ensures var r := Init(e, b);
      && r.initialized && r.available == e.available
      && (forall i :: 0 <= i < |e.specs| ==> Classified(r, e.specs[i], b))
      && r.missing <= SpecKeys(e.specs)
      && r.channels.Keys <= SpecKeys(e.specs)
      && ChannelsInjective(r)
  {
    LoadAllClassifies(e, e.specs, b);
    var r := Init(e, b);
    forall k1, k2 | k1 in r.channels && k2 in r.channels && k1 != k2
      ensures r.channels[k1] != r.channels[k2]
    {
      var i :| 0 <= i < |e.specs| && e.specs[i].key == k1;
      var j :| 0 <= j < |e.specs| && e.specs[j].key == k2;
      assert Classified(r, e.specs[i], b) && Classified(r, e.specs[j], b);
    }
  }
}

=== FILE: mixer_invariants.dfy ===
/** What holds of the running mixer, for any sequence of key presses: the
    panel always shows the current records, volumes stay in range, an
    unavailable sound is never playing, and when the audio device opened the
    engine's channels mirror the records of the available sounds exactly.
    When the device did not open, the engine is left untouched for good. */
module MixerInvariants {
  import opened Common
  import opened SoundPanel
  import opened AudioEngine
  import opened AmbientApp

  // ---------------------------------------------------------------------
  // The invariants
  // ---------------------------------------------------------------------

  /** The mixer-side invariant: the selection is valid, every volume is in
      [0, 100], only available sounds play, and the rows on screen are the
      rows of the current records. */
  predicate Consistent(m: Mixer) {
    && WellFormed(m)
    && (forall i :: 0 <= i < |m.sounds| ==> 0 <= m.sounds[i].volume <= MaxVolume)
    && (forall i :: 0 <= i < |m.sounds| ==> m.sounds[i].playing ==> m.sounds[i].available)
    && m.panel.shown == Render(m.sounds, m.panel)
  }

  /** The engine's channel for an available sound loops that sound exactly
      when the record says it plays, at the record's volume. */
  predicate SoundSynced(s: SoundState, e: Engine) {
    && s.key !in e.missing
    && Bound(e, s.key)
    && ChannelAt(e.mixer, e.channels[s.key]) ==
       Channel(if s.playing then Some(e.sounds[s.key]) else None, s.volume)
  }

  /** The engine-side invariant when the device opened. */
  predicate Synced(sounds: seq<SoundState>, e: Engine) {
    && e.initialized && e.available
    && ChannelsInjective(e)
    && DistinctKeys(KeysOfSounds(sounds))
    && (forall i :: 0 <= i < |sounds| ==> sounds[i].available ==> SoundSynced(sounds[i], e))
  }

  /** The engine after a failed `init`: unavailable, never initialized and
      with nothing bound. */
  predicate EngineDown(e: Engine) {
    !e.available && !e.initialized && Unbound(e)
  }

  // ---------------------------------------------------------------------
  // Helpers
  // ---------------------------------------------------------------------

  lemma ApplyNone(e: Engine, b: Backend)
    ensures ApplyAll(e, [], b) == e
  {
  }

  lemma ApplyOne(e: Engine, c: Call, b: Backend)
    ensures ApplyAll(e, [c], b) == Apply(e, c, b)
  {
    assert [c][1..] == [];
  }

  /** A change confined to the channel of key k leaves the sync of a sound
      with another key intact, since no two keys share a channel. */
  lemma OtherSoundStaysSynced(s: SoundState, e: Engine, e2: Engine, k: Key)
    requires SoundSynced(s, e) && ChannelsInjective(e)
    requires s.key != k && k in e.channels
    requires e2.(mixer := e.mixer) == e
    requires forall j :: j != e.channels[k] ==> ChannelAt(e2.mixer, j) == ChannelAt(e.mixer, j)
    ensures SoundSynced(s, e2)
  {
    assert e.channels[s.key] != e.channels[k];
  }

  // ---------------------------------------------------------------------
  // Each command keeps the invariants
  // ---------------------------------------------------------------------

  lemma DispatchKeepsConsistent(m: Mixer, c: Command)
    requires Consistent(m)
    ensures Consistent(Dispatch(m, c).0)
  {
    var i := m.panel.selected;
    match c
    case KeyUp =>
    case KeyDown =>
    case KeyLeft =>
      var r := AdjustVolume(m, -VolumeStep);
      assert forall j :: 0 <= j < |m.sounds| && j != i ==> r.0.sounds[j] == m.sounds[j];
    case KeyRight =>
      var r := AdjustVolume(m, VolumeStep);
      assert forall j :: 0 <= j < |m.sounds| && j != i ==> r.0.sounds[j] == m.sounds[j];
    case KeySpace =>
  }

  lemma AdjustVolumeKeepsSynced(m: Mixer, delta: int, e: Engine, b: Backend)
    requires Consistent(m) && Synced(m.sounds, e)
    ensures var r := AdjustVolume(m, delta);
      Synced(r.0.sounds, ApplyAll(e, r.1, b))
  {
    var i := m.panel.selected;
    var s := m.sounds[i];
    var r := AdjustVolume(m, delta);
    var nv := r.0.sounds[i].volume;
    if nv == s.volume {
      ApplyNone(e, b);
    } else {
      ApplyOne(e, SetVolume(s.key, nv), b);
      var e2 := SetSoundVolume(e, s.key, nv);
      if Playable(e, s.key) && s.key in e.channels {
        forall j | 0 <= j < |m.sounds| && r.0.sounds[j].available
          ensures SoundSynced(r.0.sounds[j], e2)
        {
          if j != i {
            OtherSoundStaysSynced(m.sounds[j], e, e2, s.key);
          }
        }
      }
    }
  }

  lemma ToggleKeepsSynced(m: Mixer, e: Engine, b: Backend)
    requires Consistent(m) && Synced(m.sounds, e)
    ensures var r := ToggleSelected(m);
      Synced(r.0.sounds, ApplyAll(e, r.1, b))
  {
    var i := m.panel.selected;
    var s := m.sounds[i];
    var r := ToggleSelected(m);
    if !s.available {
      ApplyNone(e, b);
    } else {
      assert SoundSynced(s, e);
      var call := if r.0.sounds[i].playing then Start(s.key) else Stop(s.key);
      ApplyOne(e, call, b);
      var e2 := Apply(e, call, b);
      assert Init(e, b) == e;
      forall j | 0 <= j < |m.sounds| && r.0.sounds[j].available
        ensures SoundSynced(r.0.sounds[j], e2)
      {
        if j != i {
          OtherSoundStaysSynced(m.sounds[j], e, e2, s.key);
        }
      }
    }
  }

  lemma StepKeepsSynced(a: App, c: Command, b: Backend)
    requires Consistent(a.mixer) && Synced(a.mixer.sounds, a.engine)
    ensures Synced(Step(a, c, b).mixer.sounds, Step(a, c, b).engine)
  {
    match c
    case KeyUp => ApplyNone(a.engine, b);
    case KeyDown => ApplyNone(a.engine, b);
    case KeyLeft => AdjustVolumeKeepsSynced(a.mixer, -VolumeStep, a.engine, b);
    case KeyRight => AdjustVolumeKeepsSynced(a.mixer, VolumeStep, a.engine, b);
    case KeySpace => ToggleKeepsSynced(a.mixer, a.engine, b);
  }

  /** An unavailable engine ignores every playback call. */
  lemma {:induction false} DownEngineIgnoresCalls(e: Engine, calls: seq<Call>, b: Backend)
    requires !e.available
    requires forall c :: c in calls ==> c.Start? || c.Stop? || c.SetVolume?
    ensures ApplyAll(e, calls, b) == e
    decreases |calls|
  {
    if calls != [] {
      assert calls[0] in calls;
      assert Apply(e, calls[0], b) == e;
      assert forall c :: c in calls[1..] ==> c in calls;
      DownEngineIgnoresCalls(e, calls[1..], b);
    }
  }

  // ---------------------------------------------------------------------
  // Any run keeps the invariants
  // ---------------------------------------------------------------------

  lemma {:induction false} RunKeepsInvariants(a: App, cmds: seq<Command>, b: Backend)
    requires Consistent(a.mixer)
    ensures Consistent(Run(a, cmds, b).mixer)
    ensures Synced(a.mixer.sounds, a.engine) ==> Synced(Run(a, cmds, b).mixer.sounds, Run(a, cmds, b).engine)
    ensures !a.engine.available ==> Run(a, cmds, b).engine == a.engine
    decreases |cmds|
  {
    if cmds != [] {
      var a2 := Step(a, cmds[0], b);
      DispatchKeepsConsistent(a.mixer, cmds[0]);
      if Synced(a.mixer.sounds, a.engine) {
        StepKeepsSynced(a, cmds[0], b);
      }
      if !a.engine.available {
        DownEngineIgnoresCalls(a.engine, Dispatch(a.mixer, cmds[0]).1, b);
      }
      RunKeepsInvariants(a2, cmds[1..], b);
    }
  }

  // ---------------------------------------------------------------------
  // Mounting establishes the invariants
  // ---------------------------------------------------------------------

  /** Marking sounds missing keeps the mixer consistent as long as nothing
      plays yet: marking lowers `available` but leaves `playing` alone. */
  lemma MarkMissingKeepsConsistent(m: Mixer, missing: set<Key>)
    requires Consistent(m)
    requires forall i :: 0 <= i < |m.sounds| ==> !m.sounds[i].playing
    ensures Consistent(MarkMissing(m, missing))
  {
    var r := MarkMissing(m, missing);
    if !exists i :: 0 <= i < |m.sounds| && m.sounds[i].key in missing {
      assert r == m;
    }
  }

  /** Redrawing the rows of a well-formed mixer whose volumes are in range
      and where nothing plays makes it consistent. */
  lemma RefreshedConsistent(m: Mixer)
    requires WellFormed(m)
    requires forall i :: 0 <= i < |m.sounds| ==> 0 <= m.sounds[i].volume <= MaxVolume && !m.sounds[i].playing
    ensures Consistent(Mixer(m.sounds, RefreshRows(m.panel, m.sounds)))
  {
    var m0 := Mixer(m.sounds, RefreshRows(m.panel, m.sounds));
    RenderIgnoresShown(m.sounds, m.panel, m0.panel.shown);
  }

  /** Mounting an application whose records are fresh (volumes in range,
      nothing playing) leaves the mixer consistent. */
  lemma FreshMountConsistent(a: App, b: Backend)
    requires WellFormed(a.mixer)
    requires forall i :: 0 <= i < |a.mixer.sounds| ==> 0 <= a.mixer.sounds[i].volume <= MaxVolume && !a.mixer.sounds[i].playing
    ensures Consistent(Mount(a, b).mixer)
  {
    RefreshedConsistent(a.mixer);
    var m0 := Mixer(a.mixer.sounds, RefreshRows(a.mixer.panel, a.mixer.sounds));
    MarkMissingKeepsConsistent(m0, Init(a.engine, b).missing);
  }

  lemma MountConsistent(configs: seq<SoundConfig>, layout: seq<seq<Key>>, files: set<string>, b: Backend)
    requires |configs| > 0
    ensures Consistent(Mount(NewApp(configs, layout, files), b).mixer)
  {
    NewAppShape(configs, layout, files);
    FreshMountConsistent(NewApp(configs, layout, files), b);
  }

  lemma MountSynced(configs: seq<SoundConfig>, layout: seq<seq<Key>>, files: set<string>, b: Backend)
    requires |configs| > 0 && DistinctKeys(KeysOfConfigs(configs)) && b.mixerOpens
    ensures var a := Mount(NewApp(configs, layout, files), b);
      Synced(a.mixer.sounds, a.engine)
  {
    var a0 := NewApp(configs, layout, files);
    NewAppShape(configs, layout, files);
    InitClassifies(a0.engine, b);
    var a := Mount(a0, b);
    forall i | 0 <= i < |a.mixer.sounds| && a.mixer.sounds[i].available
      ensures SoundSynced(a.mixer.sounds[i], a.engine)
    {
      assert Classified(a.engine, a0.engine.specs[i], b);
    }
  }

  lemma MountEngineDown(configs: seq<SoundConfig>, layout: seq<seq<Key>>, files: set<string>, b: Backend)
    requires !b.mixerOpens
    ensures EngineDown(Mount(NewApp(configs, layout, files), b).engine)
  {
  }

  /** The catalogue's six keys are distinct. */
  lemma CatalogueKeysDistinct()
    ensures DistinctKeys(KeysOfConfigs(SoundConfigs))
  {
  }

  /** The whole application, for whatever sound files exist, whatever the
      audio device does and whatever keys are pressed: the mixer state stays
      consistent, the engine mirrors it when the device opened, and the engine
      stays down when it did not. */
  lemma CatalogueSafety(files: set<string>, b: Backend, cmds: seq<Command>)
    ensures var a := Run(Mount(NewApp(SoundConfigs, SoundLayout, files), b), cmds, b);
      && Consistent(a.mixer)
      && (b.mixerOpens ==> Synced(a.mixer.sounds, a.engine))
      && (!b.mixerOpens ==> EngineDown(a.engine))
  {
    var a0 := Mount(NewApp(SoundConfigs, SoundLayout, files), b);
    MountConsistent(SoundConfigs, SoundLayout, files, b);
    if b.mixerOpens {
      CatalogueKeysDistinct();
      MountSynced(SoundConfigs, SoundLayout, files, b);
    } else {
      MountEngineDown(SoundConfigs, SoundLayout, files, b);
    }
    RunKeepsInvariants(a0, cmds, b);
  }
}

=== FILE: numeric.dfy ===
/** Integer helpers standing in for Python's `max(lo, min(hi, x))` and the
    built-in `round`, which rounds halves to the nearest even integer. */
module Numeric {

  function Abs(x: int): (r: nat)
    ensures r == x || r == -x
  {
    if x < 0 then -x else x
  }

  /** `max(lo, min(hi, x))`: the point of [lo, hi] nearest to x. */
  function Clamp(lo: int, hi: int, x: int): (r: int)
    requires lo <= hi
    ensures lo <= r <= hi
    ensures lo <= x <= hi ==> r == x
    ensures x < lo ==> r == lo
    ensures x > hi ==> r == hi
  {
    if x < lo then lo else if x > hi then hi else x
  }

  /** r is an integer nearest to the rational n/d. */
  predicate Nearest(n: int, d: int, r: int)
    requires d > 0
  {
    2 * Abs(n - r * d) <= d
  }

  /** Python's `round(n / d)`: the nearest integer, halves going to the
      even neighbour. */
  function RoundHalfEven(n: int, d: int): (r: int)
    requires d > 0
    ensures Nearest(n, d, r)
    ensures 2 * Abs(n - r * d) == d ==> r % 2 == 0
  {
    var q := n / d;
    var rem := n % d;
    assert n == q * d + rem;
    assert n - (q + 1) * d == rem - d;
    if 2 * rem < d then q
    else if 2 * rem > d then q + 1
    else if q % 2 == 0 then q
    else q + 1
  }

  /** Facts about k*d for a positive d that the solver will not find alone. */
  lemma MultipleFacts(k: int, d: int)
    requires d > 0
    ensures k >= 1 ==> k * d >= d
    ensures k >= 2 ==> k * d >= 2 * d
    ensures k <= 0 ==> k * d <= 0
    decreases Abs(k)
  {
    if k >= 1 {
      assert k * d == (k - 1) * d + d;
      MultipleFacts(k - 1, d);
    } else if k < 0 {
      assert k * d == (k + 1) * d - d;
      MultipleFacts(k + 1, d);
    }
  }

  /** Multiplying by a non-negative factor preserves order. */
  lemma MulMonotone(a: int, b: int, c: int)
    requires a <= b && c >= 0
    ensures a * c <= b * c
  {
    if c > 0 {
      MultipleFacts(b - a, c);
      assert (b - a) * c == b * c - a * c;
    }
  }

  /** Euclidean division is determined by its defining equation. */
  lemma DivModUnique(x: int, n: int, q: int, m: int)
    requires n > 0 && 0 <= m < n
    requires x == q * n + m
    ensures x / n == q && x % n == m
  {
    var q0 := x / n;
    var m0 := x % n;
    assert (q - q0) * n == m0 - m;
    MultipleFacts(q - q0, n);
    MultipleFacts(q0 - q, n);
    assert (q0 - q) * n == m - m0;
  }

  /** Adding a multiple of n does not change the remainder modulo n. */
  lemma ModShift(x: int, k: int, n: int)
    requires n > 0
    ensures (x + k * n) % n == x % n
  {
    assert x + k * n == (x / n + k) * n + x % n;
    DivModUnique(x + k * n, n, x / n + k, x % n);
  }

  /** Reducing modulo n before adding does not change the remainder. */
  lemma ModAddReduce(a: int, d: int, n: int)
    requires n > 0
    ensures (a % n + d) % n == (a + d) % n
  {
    var t := a / n;
    assert a == t * n + a % n;
    ModShift(a % n + d, t, n);
    assert a % n + d + t * n == a + d;
  }

  /** Multiplication distributes over a successor. */
  lemma MulSucc(m: int, d: int)
    ensures (m + 1) * d == m * d + d
  {
  }

  /** One more step of size d from the k-1 step remainder gives the k step
      remainder. */
  lemma ModStep(s: int, d: int, k: int, n: int)
    requires n > 0
    ensures ((s + (k - 1) * d) % n + d) % n == (s + k * d) % n
  {
    var a := s + (k - 1) * d;
    assert a + d == s + k * d by {
      MulSucc(k - 1, d);
    }
    ModAddReduce(a, d, n);
  }

  /** Two integers nearest to n/d that differ are neighbours, and n/d lies
      exactly half-way between them. */
  lemma TwoNearest(n: int, d: int, lo: int, hi: int)
    requires d > 0 && lo < hi
    requires Nearest(n, d, lo) && Nearest(n, d, hi)
    ensures hi == lo + 1
    ensures 2 * Abs(n - lo * d) == d && 2 * Abs(n - hi * d) == d
  {
    var a := lo * d;
    var b := hi * d;
    assert b - a == (hi - lo) * d;
    MultipleFacts(hi - lo, d);
    MultipleFacts(hi - lo - 1, d);
    assert (hi - lo - 1) * d == b - a - d;
  }

  /** Away from ties there is only one nearest integer, and at a tie only one
      of the two is even: so the contract of RoundHalfEven pins its result
      down completely. */
  lemma RoundHalfEvenUnique(n: int, d: int, r: int)
    requires d > 0
    requires Nearest(n, d, r)
    requires 2 * Abs(n - r * d) == d ==> r % 2 == 0
    ensures r == RoundHalfEven(n, d)
  {
    var s := RoundHalfEven(n, d);
    if r < s {
      TwoNearest(n, d, r, s);
    } else if r > s {
      TwoNearest(n, d, s, r);
    }
  }

  /** Round-half-even results, whatever computes them, are ordered like
      their numerators. */
  lemma NearestEvenOrdered(n1: int, n2: int, d: int, r1: int, r2: int)
    requires d > 0 && n1 <= n2
    requires Nearest(n1, d, r1) && (2 * Abs(n1 - r1 * d) == d ==> r1 % 2 == 0)
    requires Nearest(n2, d, r2) && (2 * Abs(n2 - r2 * d) == d ==> r2 % 2 == 0)
    ensures r1 <= r2
  {
    if r1 > r2 {
      var a := r2 * d;
      var b := r1 * d;
      assert b - a == (r1 - r2) * d;
      MultipleFacts(r1 - r2, d);
      MultipleFacts(r1 - r2 - 1, d);
      // n1 lies at least d/2 above a and n2 at most d/2 above it, so both
      // would sit exactly half-way and r1, r2 would be two even neighbours
    }
  }

  /** Rounding is monotone in the numerator. */
  lemma RoundHalfEvenMonotone(n1: int, n2: int, d: int)
    requires d > 0
    requires n1 <= n2
    ensures RoundHalfEven(n1, d) <= RoundHalfEven(n2, d)
  {
    NearestEvenOrdered(n1, n2, d, RoundHalfEven(n1, d), RoundHalfEven(n2, d));
  }

  /** Rounding an exact multiple gives the multiplier back. */
  lemma RoundHalfEvenExact(k: int, d: int)
    requires d > 0
    ensures RoundHalfEven(k * d, d) == k
  {
    RoundHalfEvenUnique(k * d, d, k);
  }
}

=== FILE: sound_panel.dfy ===
/** The sound panel (ui/sound_panel.py): per-sound state records, the
    circular selection, and the text each layout row shows. The Textual
    widget is reduced to what it holds: the layout, the selected index, the
    key-to-index table built at construction, and the rows currently on
    screen. */
module SoundPanel {
  import opened Common
  import opened Numeric
  import opened Text

  /** `SoundState`: one record per catalogue entry. */
  datatype SoundState = SoundState(key: Key, name: string, volume: int, playing: bool, available: bool)

  /** The styles an entry can carry: bold blue while playing, dim while
      unavailable, none otherwise. */
  datatype Style = Active | Dim | Plain

  /** One rendered entry: its text and the style applied to all of it. */
  datatype Entry = Entry(text: string, style: Style)

  datatype Panel = Panel(
    layout: seq<seq<Key>>,
    selected: int,
    indexByKey: map<Key, nat>,
    shown: seq<seq<Entry>>)

  const BarWidth: nat := 16
  const NameWidth: nat := 9
  const EntryWidth: nat := 36
  const FullCell: char := '\U{2588}'
  const EmptyCell: char := '\U{2591}'

  /** `{state.key: idx for idx, state in enumerate(sounds)}`: exactly the
      keys of the list are present, each mapped to an index carrying it and
      no smaller than any other index carrying it (the last one wins). */
  function IndexByKey(sounds: seq<SoundState>): (r: map<Key, nat>)
    ensures forall i :: 0 <= i < |sounds| ==> sounds[i].key in r && i <= r[sounds[i].key]
    ensures forall k :: k in r ==> r[k] < |sounds| && sounds[r[k]].key == k
    decreases |sounds|
  {
    if sounds == [] then map[]
    else
      var n := |sounds| - 1;
      var pre := sounds[..n];
      var m := IndexByKey(pre);
      var r := m[sounds[n].key := n];
      assert forall i :: 0 <= i < |sounds| ==> sounds[i].key in r && i <= r[sounds[i].key] by {
        forall i | 0 <= i < |sounds| ensures sounds[i].key in r && i <= r[sounds[i].key] {
          if i < n { assert pre[i] == sounds[i]; }
        }
      }
      assert forall k :: k in r ==> r[k] < |sounds| && sounds[r[k]].key == k by {
        forall k | k in r ensures r[k] < |sounds| && sounds[r[k]].key == k {
          if k != sounds[n].key { assert pre[m[k]] == sounds[m[k]]; }
        }
      }
      r
  }

  /** The records' keys, in order. */
  function KeysOfSounds(sounds: seq<SoundState>): (r: seq<Key>)
    ensures |r| == |sounds| && forall i :: 0 <= i < |sounds| ==> r[i] == sounds[i].key
  {
    seq(|sounds|, i requires 0 <= i < |sounds| => sounds[i].key)
  }

  /** With distinct keys, the table inverts the list. */
  lemma IndexByKeyDistinct(sounds: seq<SoundState>, i: int)
    requires DistinctKeys(KeysOfSounds(sounds))
    requires 0 <= i < |sounds|
    ensures IndexByKey(sounds)[sounds[i].key] == i
  {
  }

  /** Every index the key table holds addresses a sound. */
  predicate IndexValid(p: Panel, sounds: seq<SoundState>) {
    forall k :: k in p.indexByKey ==> p.indexByKey[k] < |sounds|
  }

  /** `SoundPanel.__init__`: the layout, selection at 0, the key table, and
      nothing on screen yet. */
  function NewPanel(sounds: seq<SoundState>, layout: seq<seq<Key>>): (p: Panel)
    ensures IndexValid(p, sounds)
    ensures p.selected == 0 && p.layout == layout && p.shown == []
    ensures forall i :: 0 <= i < |sounds| ==> sounds[i].key in p.indexByKey
  {
    Panel(layout, 0, IndexByKey(sounds), [])
  }

  // ---------------------------------------------------------------------
  // Rendering
  // ---------------------------------------------------------------------

  /** The number of filled cells of a bar of `width` cells for a volume in
      hundredths: `round(volume * width)` clamped to [0, width]. */
  function FilledCells(volume: int, width: nat): (k: nat)
    ensures k <= width
    ensures 0 <= RoundHalfEven(volume * width, 100) <= width ==> k == RoundHalfEven(volume * width, 100)
  {
    Clamp(0, width, RoundHalfEven(volume * width, 100))
  }

  /** `_volume_bar`: exactly `width` cells, the filled ones first. */
  function VolumeBar(volume: int, width: nat): (r: string)
    ensures |r| == width
    ensures forall i :: 0 <= i < width ==> (r[i] == FullCell <==> i < FilledCells(volume, width))
    ensures forall i :: 0 <= i < width ==> (r[i] == EmptyCell <==> i >= FilledCells(volume, width))
  {
    var filled := FilledCells(volume, width);
    Repeat(FullCell, filled) + Repeat(EmptyCell, width - filled)
  }

  /** For a volume in [0, 100] the clamp in `_volume_bar` never bites: the
      bar shows exactly the rounded share of its width. */
  lemma FilledCellsInRange(volume: int, width: nat)
    requires 0 <= volume <= MaxVolume
    ensures FilledCells(volume, width) == RoundHalfEven(volume * width, 100)
  {
    MulMonotone(0, volume, width);
    MulMonotone(volume, 100, width);
    RoundHalfEvenMonotone(0, volume * width, 100);
    RoundHalfEvenMonotone(volume * width, width * 100, 100);
    RoundHalfEvenExact(0, 100);
    RoundHalfEvenExact(width, 100);
  }

  /** A louder sound never shows a shorter bar; silence shows an empty bar
      and full volume a full one. */
  lemma FilledCellsMonotone(v1: int, v2: int, width: nat)
    requires v1 <= v2
    ensures FilledCells(v1, width) <= FilledCells(v2, width)
    ensures FilledCells(0, width) == 0
    ensures FilledCells(MaxVolume, width) == width
  {
    MulMonotone(v1, v2, width);
    RoundHalfEvenMonotone(v1 * width, v2 * width, 100);
    RoundHalfEvenExact(0, 100);
    RoundHalfEvenExact(width, 100);
    assert MaxVolume * width == width * 100;
  }

  /** `int(round(state.volume * 100))`: with volumes held in hundredths the
      label is the volume itself. */
  function PercentOf(volume: int): (r: int)
    ensures r == volume
  {
    RoundHalfEvenExact(volume, 100);
    RoundHalfEven(volume * 100, 100)
  }

  /** The `{percent:2d}` field. */
  function PercentField(volume: int): string {
    PadLeft(IntToString(PercentOf(volume)), 2)
  }

  /** The percentage field is the volume's decimal digits right-aligned in
      two columns: reading the digits back gives the volume. */
  lemma PercentFieldReadsBack(volume: int)
    requires 0 <= volume <= MaxVolume
    ensures var f := PercentField(volume);
      var d := IntToString(volume);
      && |f| == (if volume < 10 then 2 else |d|)
      && f[|f| - |d|..] == d
      && (forall i :: 0 <= i < |f| - |d| ==> f[i] == ' ')
      && DigitsValue(d) == volume
  {
    if volume < 10 {
      assert IntToString(volume) == NatToString(volume) == [DigitChar(volume)];
    } else {
      var d := IntToString(volume);
      assert d == NatToString(volume) == NatToString(volume / 10) + [DigitChar(volume % 10)];
    }
  }

  /** The style `_format_entry` applies: playing wins over unavailable. */
  function StyleOf(s: SoundState): (st: Style)
    ensures st == Active <==> s.playing
    ensures st == Dim <==> !s.playing && !s.available
    ensures st == Plain <==> !s.playing && s.available
  {
    if s.playing then Active else if !s.available then Dim else Plain
  }

  /** Width of the name column: `{name:<9}` pads but never truncates. */
  function NameColumn(name: string): nat {
    if |name| < NameWidth then NameWidth else |name|
  }

  /** Where the bar starts in an entry: indicator, blank, name column, " [". */
  function BarOffset(name: string): nat {
    2 + NameColumn(name) + 2
  }

  /** `f"{indicator} {name:<9} [{bar}] {pct}%".ljust(36)` for given pieces. */
  function EntryText(indicator: char, name: string, bar: string, pct: string): string {
    PadRight(EntryLine(indicator, name, bar, pct), EntryWidth)
  }

  /** Text t shows bar between "[" and "] " from column off, followed by pct. */
  predicate ShowsAt(t: string, off: nat, bar: string, pct: string) {
    && 1 <= off
    && off + |bar| + 2 + |pct| <= |t|
    && t[off - 1] == '['
    && t[off..off + |bar|] == bar
    && t[off + |bar|..off + |bar| + 2] == "] "
    && t[off + |bar| + 2..off + |bar| + 2 + |pct|] == pct
  }

  /** The unpadded line of an entry, before `ljust`. */
  function EntryLine(indicator: char, name: string, bar: string, pct: string): string {
    [indicator] + " " + PadRight(name, NameWidth) + " [" + bar + "] " + pct + "%"
  }

  /** Where each piece lands in the unpadded line. */
  lemma EntryLineLayout(indicator: char, name: string, bar: string, pct: string)
    ensures EntryLine(indicator, name, bar, pct)[0] == indicator
    ensures ShowsAt(EntryLine(indicator, name, bar, pct), BarOffset(name), bar, pct)
  {
    var head := [indicator] + " " + PadRight(name, NameWidth) + " [";
    var tail := "] " + pct + "%";
    var line := head + bar + tail;
    var off := BarOffset(name);
    assert line == EntryLine(indicator, name, bar, pct);
    assert |head| == off && head[off - 1] == '[';
    MiddleOfConcat(head, bar, tail);
    MiddleOfConcat("] ", pct, "%");
    assert line[0] == head[0];
    assert line[off - 1] == head[off - 1];
    assert line == (head + bar) + tail;
    SliceOfSecond(head + bar, tail, 0, 2);
    SliceOfSecond(head + bar, tail, 2, 2 + |pct|);
  }

  /** Padding on the right keeps what a line shows. */
  lemma ShowsAtPrefix(t: string, u: string, off: nat, bar: string, pct: string)
    requires |u| <= |t| && t[..|u|] == u
    requires ShowsAt(u, off, bar, pct)
    ensures ShowsAt(t, off, bar, pct)
  {
    assert t[off - 1] == t[..|u|][off - 1];
    SliceOfPrefix(t, u, off, off + |bar|);
    SliceOfPrefix(t, u, off + |bar|, off + |bar| + 2);
    SliceOfPrefix(t, u, off + |bar| + 2, off + |bar| + 2 + |pct|);
  }

  /** The unpadded line shows the name from column 2, padded with blanks
      to its column width. */
  lemma EntryLineShowsName(indicator: char, name: string, bar: string, pct: string)
    ensures 2 + NameColumn(name) <= |EntryLine(indicator, name, bar, pct)|
    ensures EntryLine(indicator, name, bar, pct)[2..2 + |name|] == name
    ensures forall i :: 2 + |name| <= i < 2 + NameColumn(name) ==> EntryLine(indicator, name, bar, pct)[i] == ' '
  {
    var col := PadRight(name, NameWidth);
    var rest := " [" + bar + "] " + pct + "%";
    var line := [indicator] + " " + col + rest;
    assert line == EntryLine(indicator, name, bar, pct);
    MiddleOfConcat([indicator] + " ", col, rest);
    assert |col| == NameColumn(name);
    assert line[2..2 + |name|] == col[..|name|];
    forall i | 2 + |name| <= i < 2 + NameColumn(name)
      ensures line[i] == ' '
    {
      assert line[i] == col[i - 2];
    }
  }

  /** An entry shows the name from column 2, padded with blanks to its
      column width. */
  lemma EntryTextShowsName(indicator: char, name: string, bar: string, pct: string)
    ensures 2 + NameColumn(name) <= |EntryText(indicator, name, bar, pct)|
    ensures EntryText(indicator, name, bar, pct)[2..2 + |name|] == name
    ensures forall i :: 2 + |name| <= i < 2 + NameColumn(name) ==> EntryText(indicator, name, bar, pct)[i] == ' '
  {
    var line := EntryLine(indicator, name, bar, pct);
    var text := EntryText(indicator, name, bar, pct);
    EntryLineShowsName(indicator, name, bar, pct);
    SliceOfPrefix(text, line, 2, 2 + |name|);
    forall i | 2 + |name| <= i < 2 + NameColumn(name)
      ensures text[i] == ' '
    {
      assert text[i] == text[..|line|][i];
    }
  }

  /** Where each piece lands in an entry's text. */
  lemma EntryTextLayout(indicator: char, name: string, bar: string, pct: string)
    ensures |EntryText(indicator, name, bar, pct)| >= EntryWidth
    ensures EntryText(indicator, name, bar, pct)[0] == indicator
    ensures ShowsAt(EntryText(indicator, name, bar, pct), BarOffset(name), bar, pct)
  {
    var line := EntryLine(indicator, name, bar, pct);
    var text := PadRight(line, EntryWidth);
    assert text == EntryText(indicator, name, bar, pct);
    EntryLineLayout(indicator, name, bar, pct);
    assert text[0] == text[..|line|][0];
    ShowsAtPrefix(text, line, BarOffset(name), bar, pct);
  }

  /** `_format_entry`: the marker first, left-justified to 36 columns, in
      the style the sound's state calls for. */
  function FormatEntry(s: SoundState, selected: bool): (r: Entry)
    ensures |r.text| >= EntryWidth
    ensures r.text[0] == '>' <==> selected
    ensures !selected ==> r.text[0] == ' '
    ensures r.style == StyleOf(s)
  {
    var indicator := if selected then '>' else ' ';
    var bar := VolumeBar(s.volume, BarWidth);
    var pct := PercentField(s.volume);
    EntryTextLayout(indicator, s.name, bar, pct);
    Entry(EntryText(indicator, s.name, bar, pct), StyleOf(s))
  }

  /** An entry shows the sound's volume twice at fixed columns: as the
      16-cell bar between "[" and "]", and as the percentage after it. */
  lemma FormatEntryShowsVolume(s: SoundState, selected: bool)
    ensures ShowsAt(FormatEntry(s, selected).text, BarOffset(s.name), VolumeBar(s.volume, BarWidth), PercentField(s.volume))
  {
    var indicator := if selected then '>' else ' ';
    var bar := VolumeBar(s.volume, BarWidth);
    var pct := PercentField(s.volume);
    assert FormatEntry(s, selected).text == EntryText(indicator, s.name, bar, pct);
    EntryTextLayout(indicator, s.name, bar, pct);
  }

  /** An entry shows the sound's name after the indicator and a blank,
      padded to the name column. */
  lemma FormatEntryShowsName(s: SoundState, selected: bool)
    ensures 2 + |s.name| <= |FormatEntry(s, selected).text|
    ensures FormatEntry(s, selected).text[2..2 + |s.name|] == s.name
    ensures forall i :: 2 + |s.name| <= i < 2 + NameColumn(s.name) ==> FormatEntry(s, selected).text[i] == ' '
  {
    var indicator := if selected then '>' else ' ';
    var bar := VolumeBar(s.volume, BarWidth);
    var pct := PercentField(s.volume);
    assert FormatEntry(s, selected).text == EntryText(indicator, s.name, bar, pct);
    EntryTextShowsName(indicator, s.name, bar, pct);
  }

  /** The keys of a layout row that the panel knows, in row order. */
  function KnownKeys(group: seq<Key>, index: map<Key, nat>): (r: seq<Key>)
    ensures |r| <= |group|
    ensures forall j :: 0 <= j < |r| ==> r[j] in index
    decreases |group|
  {
    if group == [] then []
    else if group[0] in index then [group[0]] + KnownKeys(group[1..], index)
    else KnownKeys(group[1..], index)
  }

  /** KnownKeys keeps exactly the row's keys the panel knows. */
  lemma {:induction false} KnownKeysMembers(group: seq<Key>, index: map<Key, nat>, k: Key)
    ensures k in KnownKeys(group, index) <==> k in group && k in index
    decreases |group|
  {
    if group != [] {
      KnownKeysMembers(group[1..], index, k);
      assert k in group <==> k == group[0] || k in group[1..];
    }
  }

  /** A row whose keys the panel all knows is kept whole. */
  lemma {:induction false} KnownKeysAllKnown(group: seq<Key>, index: map<Key, nat>)
    requires forall k :: k in group ==> k in index
    ensures KnownKeys(group, index) == group
    decreases |group|
  {
    if group != [] {
      assert group[0] in group;
      assert forall k :: k in group[1..] ==> k in group;
      KnownKeysAllKnown(group[1..], index);
      assert group == [group[0]] + group[1..];
    }
  }

  /** Every record formatted, marked iff it is the selected one: what
      `_format_entry` yields for each index. */
  function FormattedEntries(sounds: seq<SoundState>, selected: int): (r: seq<Entry>)
    ensures |r| == |sounds|
  {
    seq(|sounds|, i requires 0 <= i < |sounds| => FormatEntry(sounds[i], i == selected))
  }

  /** The entries of one layout row (the inner loop of `_refresh_rows`),
      taken from the formatted records by index: one entry per known key,
      unknown keys skipped. */
  function RenderRow(entries: seq<Entry>, index: map<Key, nat>, group: seq<Key>): (r: seq<Entry>)
    requires forall k :: k in index ==> index[k] < |entries|
    ensures |r| == |KnownKeys(group, index)|
    decreases |group|
  {
    if group == [] then []
    else
      var rest := RenderRow(entries, index, group[1..]);
      if group[0] in index then [entries[index[group[0]]]] + rest else rest
  }

  /** Entry j of a drawn row is the entry of the row's j-th known key. */
  lemma {:induction false} RenderRowEntries(entries: seq<Entry>, index: map<Key, nat>, group: seq<Key>)
    requires forall k :: k in index ==> index[k] < |entries|
    ensures forall j :: 0 <= j < |RenderRow(entries, index, group)| ==>
      RenderRow(entries, index, group)[j] == entries[index[KnownKeys(group, index)[j]]]
    decreases |group|
  {
    if group != [] {
      RenderRowEntries(entries, index, group[1..]);
      var rest := RenderRow(entries, index, group[1..]);
      var known := KnownKeys(group[1..], index);
      if group[0] in index {
        var r := RenderRow(entries, index, group);
        var known' := KnownKeys(group, index);
        assert r == [entries[index[group[0]]]] + rest;
        assert known' == [group[0]] + known;
        forall j | 0 < j < |r| ensures r[j] == entries[index[known'[j]]] {
          assert r[j] == rest[j - 1] && known'[j] == known[j - 1];
        }
      } else {
        assert RenderRow(entries, index, group) == rest;
        assert KnownKeys(group, index) == known;
      }
    }
  }

  /** Rendering a row is compositional over the row's keys. */
  lemma {:induction false} RenderRowAppend(entries: seq<Entry>, index: map<Key, nat>, g1: seq<Key>, g2: seq<Key>)
    requires forall k :: k in index ==> index[k] < |entries|
    ensures RenderRow(entries, index, g1 + g2) == RenderRow(entries, index, g1) + RenderRow(entries, index, g2)
    decreases |g1|
  {
    if g1 != [] {
      assert (g1 + g2)[1..] == g1[1..] + g2;
      RenderRowAppend(entries, index, g1[1..], g2);
    } else {
      assert g1 + g2 == g2;
    }
  }

  /** A row none of whose keys the panel knows renders empty. */
  lemma UnknownRowIsEmpty(entries: seq<Entry>, index: map<Key, nat>, group: seq<Key>)
    requires forall k :: k in index ==> index[k] < |entries|
    requires forall k :: k in group ==> k !in index
    ensures RenderRow(entries, index, group) == []
  {
  }

  /** `_refresh_rows` computed afresh from the state: one entry list per
      layout row. */
  function Render(sounds: seq<SoundState>, p: Panel): (r: seq<seq<Entry>>)
    requires IndexValid(p, sounds)
    ensures |r| == |p.layout|
  {
    var entries := FormattedEntries(sounds, p.selected);
    seq(|p.layout|, g requires 0 <= g < |p.layout| => RenderRow(entries, p.indexByKey, p.layout[g]))
  }

  /** The drawn rows depend on the layout, the key table and the selection,
      not on what was drawn before. */
  lemma RenderIgnoresShown(sounds: seq<SoundState>, p: Panel, rows: seq<seq<Entry>>)
    requires IndexValid(p, sounds)
    ensures Render(sounds, p.(shown := rows)) == Render(sounds, p)
  {
  }

  /** When the panel knows every key of its layout, each drawn row has one
      entry per layout key, in layout order, and an entry carries the marker
      exactly when its sound is the selected one. */
  lemma LayoutRowsComplete(sounds: seq<SoundState>, p: Panel)
    requires IndexValid(p, sounds)
    requires forall g, k :: 0 <= g < |p.layout| && k in p.layout[g] ==> k in p.indexByKey
    ensures forall g :: 0 <= g < |p.layout| ==> |Render(sounds, p)[g]| == |p.layout[g]|
    ensures forall g, j :: 0 <= g < |p.layout| && 0 <= j < |p.layout[g]| ==>
      && p.layout[g][j] in p.indexByKey
      && Render(sounds, p)[g][j]
         == FormatEntry(sounds[p.indexByKey[p.layout[g][j]]], p.indexByKey[p.layout[g][j]] == p.selected)
    ensures forall g, j :: 0 <= g < |p.layout| && 0 <= j < |p.layout[g]| ==>
      (">" <= Render(sounds, p)[g][j].text <==> p.indexByKey[p.layout[g][j]] == p.selected)
  {
    var entries := FormattedEntries(sounds, p.selected);
    var index := p.indexByKey;
    forall g | 0 <= g < |p.layout|
      ensures Render(sounds, p)[g] == RenderRow(entries, index, p.layout[g])
      ensures KnownKeys(p.layout[g], index) == p.layout[g]
    {
      KnownKeysAllKnown(p.layout[g], index);
    }
    forall g, j | 0 <= g < |p.layout| && 0 <= j < |p.layout[g]|
      ensures p.layout[g][j] in index
      ensures Render(sounds, p)[g][j] == FormatEntry(sounds[index[p.layout[g][j]]], index[p.layout[g][j]] == p.selected)
      ensures ">" <= Render(sounds, p)[g][j].text <==> index[p.layout[g][j]] == p.selected
    {
      var k := p.layout[g][j];
      assert k in p.layout[g];
      RenderRowEntries(entries, index, p.layout[g]);
      var e := Render(sounds, p)[g][j];
      assert e == entries[index[k]];
      var t := e.text;
      assert |t| > 0;
      assert ">" <= t <==> t[0] == '>';
    }
  }

  /** `_refresh_rows` as a panel update: only what is shown changes. */
  function RefreshRows(p: Panel, sounds: seq<SoundState>): (r: Panel)
    requires IndexValid(p, sounds)
    ensures r.shown == Render(sounds, p)
    ensures r.(shown := p.shown) == p
  {
    p.(shown := Render(sounds, p))
  }

  /** `update_row`: refresh for an index in range, ignore any other. */
  function UpdateRow(p: Panel, sounds: seq<SoundState>, index: int): (r: Panel)
    requires IndexValid(p, sounds)
    ensures !(0 <= index < |sounds|) ==> r == p
    ensures 0 <= index < |sounds| ==> r.shown == Render(sounds, p)
    ensures r.(shown := p.shown) == p
  {
    if 0 <= index < |sounds| then RefreshRows(p, sounds) else p
  }

  // ---------------------------------------------------------------------
  // Selection
  // ---------------------------------------------------------------------

  /** `move_selection`: a no-op on an empty list; otherwise the selection
      moves by delta around the circle of |sounds| positions (Python's `%`
      with a positive modulus agrees with Dafny's) and the rows are redrawn. */
  function MoveSelection(p: Panel, sounds: seq<SoundState>, delta: int): (r: Panel)
    requires IndexValid(p, sounds)
    ensures |sounds| == 0 ==> r == p
    ensures |sounds| > 0 ==> 0 <= r.selected < |sounds|
    ensures |sounds| > 0 ==> (r.selected - (p.selected + delta)) % |sounds| == 0
    ensures r.layout == p.layout && r.indexByKey == p.indexByKey
    ensures |sounds| > 0 ==> r.shown == Render(sounds, r)
  {
    if |sounds| == 0 then p
    else
      var n := |sounds|;
      var x := p.selected + delta;
      ModShift(0, -(x / n), n);
      assert x % n - x == -(x / n) * n;
      RefreshRows(p.(selected := x % n), sounds)
  }

  /** k successive moves by the same delta. */
  function Moves(p: Panel, sounds: seq<SoundState>, delta: int, k: nat): (r: Panel)
    requires IndexValid(p, sounds)
    ensures r.indexByKey == p.indexByKey
    decreases k
  {
    if k == 0 then p else MoveSelection(Moves(p, sounds, delta, k - 1), sounds, delta)
  }

  /** One move lands on the old selection plus delta, reduced mod |sounds|. */
  lemma MoveSelectionLands(p: Panel, sounds: seq<SoundState>, delta: int)
    requires IndexValid(p, sounds) && |sounds| > 0
    ensures MoveSelection(p, sounds, delta).selected == (p.selected + delta) % |sounds|
  {
  }

  /** After k moves by delta from a valid selection s, the selection is
      (s + k * delta) mod |sounds|. */
  lemma {:induction false} MovesSelected(p: Panel, sounds: seq<SoundState>, delta: int, k: nat)
    requires IndexValid(p, sounds)
    requires 0 <= p.selected < |sounds|
    ensures Moves(p, sounds, delta, k).selected == (p.selected + k * delta) % |sounds|
    decreases k
  {
    var n := |sounds|;
    if k == 0 {
      DivModUnique(p.selected, n, 0, p.selected);
    } else {
      MovesSelected(p, sounds, delta, k - 1);
      var q := Moves(p, sounds, delta, k - 1);
      MoveSelectionLands(q, sounds, delta);
      ModStep(p.selected, delta, k, n);
    }
  }

  /** Moving forward |sounds| times comes back to the start. */
  lemma NextCycle(p: Panel, sounds: seq<SoundState>)
    requires IndexValid(p, sounds)
    requires 0 <= p.selected < |sounds|
    ensures Moves(p, sounds, 1, |sounds|).selected == p.selected
  {
    var n := |sounds|;
    MovesSelected(p, sounds, 1, n);
    ModShift(p.selected, 1, n);
    DivModUnique(p.selected, n, 0, p.selected);
  }

  /** Moving back from the first sound wraps to the last one. */
  lemma PreviousWrapsFromFirst(p: Panel, sounds: seq<SoundState>)
    requires IndexValid(p, sounds)
    requires |sounds| > 0 && p.selected == 0
    ensures MoveSelection(p, sounds, -1).selected == |sounds| - 1
  {
    DivModUnique(-1, |sounds|, -1, |sounds| - 1);
  }

  /** Moving forward then back restores the selection. */
  lemma NextThenPrevious(p: Panel, sounds: seq<SoundState>)
    requires IndexValid(p, sounds)
    requires 0 <= p.selected < |sounds|
    ensures MoveSelection(MoveSelection(p, sounds, 1), sounds, -1).selected == p.selected
  {
    var n := |sounds|;
    var q := MoveSelection(p, sounds, 1);
    assert q.selected == (p.selected + 1) % n;
    ModAddReduce(p.selected + 1, -1, n);
    DivModUnique(p.selected, n, 0, p.selected);
  }
}

=== FILE: text.dfy ===
/** The string formatting the sound panel relies on: `"x" * n`,
    `str.ljust`, the `:<w` and `:2d` format specs, and decimal rendering. */
module Text {

  /** `[c] * n` as a string: `"█" * filled` in the source. */
  function Repeat(c: char, n: nat): (r: string)
    ensures |r| == n
    ensures forall i :: 0 <= i < n ==> r[i] == c
  {
    if n == 0 then "" else Repeat(c, n - 1) + [c]
  }

  /** `s.ljust(w)` and the `{s:<w}` format spec: pad with spaces on the right
      up to width w, never truncate. */
  function PadRight(s: string, w: nat): (r: string)
    ensures |r| == if |s| < w then w else |s|
    ensures r[..|s|] == s
    ensures forall i :: |s| <= i < |r| ==> r[i] == ' '
  {
    if |s| < w then s + Repeat(' ', w - |s|) else s
  }

  /** The `{n:wd}` format spec: pad with spaces on the left up to width w. */
  function PadLeft(s: string, w: nat): (r: string)
    ensures |r| == if |s| < w then w else |s|
    ensures r[|r| - |s|..] == s
    ensures forall i :: 0 <= i < |r| - |s| ==> r[i] == ' '
  {
    if |s| < w then Repeat(' ', w - |s|) + s else s
  }

  /** A slice inside a known prefix is a slice of that prefix. */
  lemma SliceOfPrefix(t: string, u: string, i: int, j: int)
    requires |u| <= |t| && t[..|u|] == u
    requires 0 <= i <= j <= |u|
    ensures t[i..j] == u[i..j]
  {
    assert forall x :: i <= x < j ==> t[x] == t[..|u|][x];
  }

  /** The middle part of a three-way concatenation. */
  lemma MiddleOfConcat(a: string, b: string, c: string)
    ensures (a + b + c)[|a|..|a| + |b|] == b
    ensures (a + b + c)[..|a|] == a
    ensures (a + b + c)[|a| + |b|..] == c
  {
  }

  /** A slice of the second part of a concatenation. */
  lemma SliceOfSecond(a: string, b: string, x: int, y: int)
    requires 0 <= x <= y <= |b|
    ensures (a + b)[|a| + x..|a| + y] == b[x..y]
  {
  }

  predicate IsDigit(c: char) {
    '0' <= c <= '9'
  }

  function DigitChar(d: int): (c: char)
    requires 0 <= d < 10
    ensures IsDigit(c)
    ensures c as int - '0' as int == d
  {
    ('0' as int + d) as char
  }

  /** Decimal digits of n, most significant first, with no leading zero. */
  function NatToString(n: nat): (r: string)
    ensures |r| > 0
    ensures forall i :: 0 <= i < |r| ==> IsDigit(r[i])
    ensures r[0] == '0' ==> n == 0
    decreases n
  {
    if n < 10 then [DigitChar(n)] else NatToString(n / 10) + [DigitChar(n % 10)]
  }

  /** The number a string of decimal digits denotes: the reference reading
      NatToString is checked against. */
  function DigitsValue(s: string): nat
    requires forall i :: 0 <= i < |s| ==> IsDigit(s[i])
  {
    if s == [] then 0
    else
      assert IsDigit(s[|s| - 1]);
      DigitsValue(s[..|s| - 1]) * 10 + (s[|s| - 1] as int - '0' as int)
  }

  /** Reading back the digits NatToString writes gives the number. */
  lemma {:induction false} NatToStringRoundTrip(n: nat)
    ensures DigitsValue(NatToString(n)) == n
    decreases n
  {
    var r := NatToString(n);
    if n >= 10 {
      NatToStringRoundTrip(n / 10);
      assert r[..|r| - 1] == NatToString(n / 10);
    }
  }

  /** Python's `str(i)` / `{i:d}` for any integer. */
  function IntToString(i: int): (r: string)
    ensures |r| > 0
    ensures i >= 0 ==> (forall j :: 0 <= j < |r| ==> IsDigit(r[j])) && DigitsValue(r) == i
    ensures i < 0 ==> r[0] == '-'
  {
    if i < 0 then "-" + NatToString(-i)
    else
      NatToStringRoundTrip(i);
      NatToString(i)
  }
}
